=== FILE: README.md ===
# Vanity Fair story pipeline: the text-processing core in Dafny

Two near-identical Python scripts, `scripts/story_generator_03.py` and
`scripts/story_generator.py`, turn a language model's list of feature ideas
and its story draft into an HTML page and an updated site index. Between the
network calls and the file writes, each script does pure text work in five
steps. This project models that work as pure Dafny functions over strings and
proves what each step promises. The five steps are:

1. **Idea parsing.**
   - `story_generator_03.py` reads the numbered list into entries, joining continuation lines.
   - It then splits each entry into a title and a description.
   - `story_generator.py` only keeps the lines that look numbered.
2. **Choice.**
   - The idea number comes from two case-insensitive phrases in the writer's reply.
   - `story_generator_03.py` then takes the parsed title and description, or a stand-in headline.
   - `story_generator.py` looks for a markdown heading, then for a capitalised line, then falls back to the stand-in.
3. **File name.**
   - The headline is cleaned into a slug.
   - `story_generator_03.py` replaces a generic or empty slug and adds a counter until the name is free.
   - `story_generator.py` cuts the slug to 50 characters.
4. **Story body.**
   - Lines are folded into paragraphs.
   - Markdown and choice lines are skipped, and blank lines close a paragraph.
   - The paragraphs are rendered as `<p>` elements.
   - `story_generator_03.py` anchors "continue reading" on the second paragraph.
   - `story_generator.py` first skips the announcement lines at the top, and takes an excerpt of the first paragraph.
5. **Index merge.**
   - The featured card is replaced, and the archive card is put after the story-grid marker.
   - `story_generator_03.py` first adds the archive section if there is no grid.
   - It also places the featured card in an existing section, or in a new one, when there is no card to replace.

The modules follow those steps:

- `text.dfy` (`Text`): the Python string operations the scripts use. This covers `strip`, `split`, `join`, `find`, `startswith`, `lower`, `str(n)` and `int(s)`, all on ASCII.
- `patterns.dfy` (`Patterns`): the fixed regular expressions as matchers, and `re.sub` as a left-to-right, non-overlapping replace-all.
- `slug.dfy` (`Slug`): the headline cleanup both scripts share.
- `ideas.dfy` (`Ideas`): step 1.
- `selection.dfy` (`Selection`): step 2.
- `filenames.dfy` (`Filenames`): step 3.
- `prose.dfy` (`Prose`): step 4.
- `index_merge.dfy` (`IndexMerge`): step 5.

Several inputs become parameters:
- the ideas text, the reply, the story, the date string and the index page;
- the set of file names already on disk;
- the HTML of the two index cards.

Where a loop of the source is modelled as a recursive scan, a second,
declarative definition is proved equal to it. Examples are the idea scanner
(`Ideas.ScanIsBlocks`), the paragraph fold (`Prose.FoldFresh`) and the grid
substitution (`Patterns.GridReplaceIsSplitJoin`).

Two behaviours of the code are reproduced as written. Both are easy to
misread:

- **The stand-in headline never triggers escalation.** In
  `story_generator_03.py` the stand-in headline is "Vanity Fair Feature: Idea
  N". It cleans to `vanity-fair-feature-idea-N`, never to the generic
  `vanity-fair-feature-idea` the escalation tests for. The search of the story
  lines and of the chosen idea therefore never runs for it
  (`Filenames.StandInSlug`, `Filenames.StandInNeverEscalates`).
- **The fallback split uses the cleaned story.** `story_text` is reassigned
  at `story_generator_03.py` lines 441 and 445, after the choice and title
  lines are removed. The `"\n\n"` fallback at line 479 therefore splits that
  cleaned text, not the original story. `Prose.StoryParagraphs` takes the
  cleaned text and uses it for both splits.

## Model

| member | source | states |
|---|---|---|
| Slug.DropPunctuation | scripts/story_generator_03.py:227 | the result holds only word characters, whitespace and hyphens, all taken from the input; a text made only of such characters comes back unchanged |
| Slug.Clean | scripts/story_generator_03.py:227-229 | the cleanup is slug-shaped: lower-case word characters and hyphens, no whitespace, no `--` run; it is never longer than the headline |
| Slug.CollapseKeepsSolid | scripts/story_generator_03.py:229 | collapsing separator runs keeps every non-separator character, in order |
| Slug.CollapseRun | scripts/story_generator_03.py:229 | a run of whitespace and hyphens between two other characters becomes exactly one hyphen |
| Slug.CleanKeepsWords | scripts/story_generator_03.py:227-229 | with its hyphens removed, the cleanup is exactly the lower-cased headline's word characters, in order |
| Slug.CollapseShape | scripts/story_generator_03.py:229 | collapsing separator runs in lower-cased kept text leaves no whitespace and no double hyphen |
| Slug.Fit | scripts/story_generator_03.py:231 | cutting to 40 and stripping hyphens gives a slug: slug-shaped, at most 40 long, no hyphen at either end |
| Slug.Slugify | scripts/story_generator_03.py:227-231 | the cleaned headline is always a slug |
| Slug.CollapseFixesSlugShaped | scripts/story_generator_03.py:229 | collapsing leaves slug-shaped text unchanged |
| Slug.CleanFixesSlugShaped | scripts/story_generator_03.py:227-229 | slug-shaped text is its own cleanup |
| Slug.SlugifyFixesSlugs | scripts/story_generator_03.py:227-231 | slugifying an existing slug returns it unchanged |
| Slug.SlugifyIdempotent | scripts/story_generator_03.py:227-231 | cleaning a headline twice gives what cleaning it once gives |
| Slug.FilenameBase | scripts/story_generator.py:158-160 | the stem of story_generator.py is the cleaned headline cut to its first 50 characters: a prefix of the cleanup, all of it when it is at most 50 long, exactly 50 otherwise; it is slug-shaped, and the script strips no hyphens, so none is promised about its ends |
| Ideas.Classify | scripts/story_generator_03.py:107-115 | a line is read as numbered exactly when it matches `^\d+\.`; a numbered line's text is strictly shorter than the line |
| Ideas.ClassifyNumbered | scripts/story_generator_03.py:107-115 | a line spelled "N." followed by text reads back as number N with the stripped text |
| Ideas.ScanIsBlocks | scripts/story_generator_03.py:105-122 | the line-by-line scan with its current entry equals the block definition: each numbered line with the plain lines after it, kept when its text is non-empty |
| Ideas.BlocksEntries | scripts/story_generator_03.py:109-122 | every entry has non-empty text and a number that some numbered line carries |
| Ideas.ParseIdeaList | scripts/story_generator_03.py:105-122 | the parsed list is the block definition of the stripped non-blank lines, and every entry has non-empty text |
| Ideas.UnnumberedPrefixIgnored | scripts/story_generator_03.py:116-118 | lines before the first numbered line contribute nothing |
| Ideas.FirstQuotedIsLeftmost | scripts/story_generator_03.py:135 | the quoted-title search finds the leftmost `"…"` run with a non-empty inside, and finds none exactly when there is none |
| Ideas.SplitIdea | scripts/story_generator_03.py:133-157 | an entry gets no title exactly when it has no quoted run and no colon; with a quoted run, the title is the first run and the description has every `"…":\s*` label removed; otherwise the two sides of the first colon, stripped |
| Ideas.QuotedTitleForm | scripts/story_generator_03.py:135-145 | an entry written `"Title": description` splits into that title and the stripped description |
| Ideas.Assign | scripts/story_generator_03.py:129 | a key is in the dict exactly when some entry of the list sets it |
| Ideas.AssignLast | scripts/story_generator_03.py:129 | in a dict built from a list, a key maps to the value of its last occurrence |
| Ideas.AssignedByLast | scripts/story_generator_03.py:129 | every key of the dict comes from some last occurrence in the list |
| Ideas.TextsNonEmpty | scripts/story_generator_03.py:129 | every text in `idea_dict` is non-empty |
| Ideas.ParsedKeysAreTextKeys | scripts/story_generator_03.py:129-157 | every number with a parsed title also has an idea text |
| Ideas.TextKeys | scripts/story_generator_03.py:129 | `idea_dict` has a key exactly for each number some entry carries |
| Ideas.TextOfLast | scripts/story_generator_03.py:129 | for a number, `idea_dict` holds the text of the last entry carrying it |
| Ideas.ParsedKeys | scripts/story_generator_03.py:133-157 | `parsed_ideas` has a key exactly for each number carried by some entry whose text splits |
| Ideas.ParsedOfLast | scripts/story_generator_03.py:133-157 | for a number, `parsed_ideas` holds the split of the last entry carrying it whose text splits |
| Ideas.ParseIdeas | scripts/story_generator_03.py:98-157 | parsing fails exactly when no idea entry was found; otherwise the text dict has exactly the listed numbers, each with the text of its last entry, none empty; the parsed dict has exactly the numbers of entries that split, each with the split of the last such entry |
| Ideas.FilterIdeaLines | scripts/story_generator.py:94-96 | a line is kept exactly when it is among the lines and starts with a digit and has a full stop in its first three characters |
| Ideas.FilterIdeaLinesAppend | scripts/story_generator.py:94-96 | filtering keeps order: the filter of a concatenation is the concatenation of the filters |
| Ideas.IdeaList | scripts/story_generator.py:91-100 | the list is absent exactly when no stripped line qualifies; otherwise it is the non-empty filtered list |
| Selection.MatchAt | scripts/story_generator_03.py:175-177 | a match of either choice phrase at a position yields a non-empty run of digits after that position |
| Selection.SearchNumber | scripts/story_generator_03.py:175-177 | the search returns the match at some position from the start, and returns none only when no position matches |
| Selection.SearchNumberFindsLeftmost | scripts/story_generator_03.py:175-177 | what the search returns is the match at a position with no match between the start and it |
| Selection.SearchNumberLeftmost | scripts/story_generator_03.py:175-177 | the search returns the leftmost match, whichever position that is |
| Selection.FoundSpan | scripts/story_generator_03.py:175-177 | the number is found exactly when one of the two phrases matches somewhere; it is the leftmost match of the choice phrase when there is one, and only otherwise the leftmost `Idea N:` |
| Selection.ChosenDigits | scripts/story_generator_03.py:175-179 | the captured number is a non-empty digit string, absent exactly when neither phrase matches anywhere; it is the capture of the leftmost choice phrase, and that of the leftmost `Idea N:` only when no choice phrase matches |
| Selection.IdeaNumber | scripts/story_generator_03.py:179 | the idea number is 1 when nothing matched; otherwise its decimal spelling is the captured digits without leading zeros |
| Selection.DigitsValueStrip | scripts/story_generator_03.py:179 | `int` of a digit string spells back as that string without leading zeros |
| Selection.ChoicePhraseRoundTrip | scripts/story_generator_03.py:175-179 | a reply starting "I choose idea N" followed by a non-digit yields idea number N |
| Selection.ChosenIsNotAVerb | scripts/story_generator_03.py:175 | "I've chosen idea 3" matches the first phrase at no position, so the search for it finds nothing; "chosen" is none of its verbs |
| Selection.WriteFeature | scripts/story_generator_03.py:98-196 | there is no result exactly when no idea entry was found; otherwise the chosen idea is the text of the last entry with the reply's number, or "" when no entry has it; title and description are those of the last entry with that number whose text splits; when none splits, the stand-in headline and the chosen idea's text |
| Selection.IdeaNumberText | scripts/story_generator.py:118-122 | the idea number is "?" exactly when neither phrase matches, else the captured digits |
| Selection.HeadingText | scripts/story_generator.py:125 | a heading's text is a non-empty proper suffix of its line |
| Selection.FirstHeading | scripts/story_generator.py:125 | the heading found is that of the first heading line; there is none exactly when no line is a heading |
| Selection.FirstLooking | scripts/story_generator.py:128-133 | the line chosen is the first that is long, unpunctuated and more than 30% capitals; none exactly when no line qualifies |
| Selection.Headline | scripts/story_generator.py:124-137 | the headline is never empty; it is the first heading's text, else the first headline-looking line of the first 10 stripped, else the stand-in headline |
| Selection.HeadingRoundTrip | scripts/story_generator.py:125-137 | a reply that starts with "# T", for any single-line non-empty T (even one that begins with "#"), has headline T |
| Selection.FirstWithPrefix | scripts/story_generator.py:139 | the result is the first list item starting with the prefix, and absent exactly when none does |
| Selection.WriteFeature01 | scripts/story_generator.py:91-139 | there is no result exactly when the idea list is empty; otherwise the number is the captured text, the chosen idea is the first item starting with "N.", and the headline is the text of the first "#+ " heading of the reply, else the stripped first capitalised-looking line among its first 10, else "Vanity Fair Feature: Idea N" |
| Selection.NoIdeaUnderQuestionMark | scripts/story_generator.py:95-139 | no idea line starts with "?." |
| Selection.UnknownNumberChoosesNothing | scripts/story_generator.py:122-139 | when the number is unknown the chosen idea is None |
| Filenames.TitleFromLines | scripts/story_generator_03.py:236-243 | the line used is the first that is longer than 15 when stripped, starts with neither "I choose" nor "Idea", and cleans to more than 10 characters; none exactly when no line qualifies |
| Filenames.DropListNumber | scripts/story_generator_03.py:248 | removing a leading list number leaves a suffix of the text |
| Filenames.DropListNumberSpelled | scripts/story_generator_03.py:248 | for "N." plus spaces plus text, exactly the text is left |
| Filenames.StoryTitleSlug | scripts/story_generator_03.py:236-243 | the story offers a slug exactly when one of its first 20 lines qualifies, and it is the cut cleanup of the first such line |
| Filenames.ChooseSlug | scripts/story_generator_03.py:227-251 | the file slug is always a slug; the headline's when that is neither generic nor empty; else the story line's when meaningful; else the chosen idea's, list number removed, when there is a chosen idea; with no chosen idea the last meaningless slug stands |
| Filenames.StandInSlug | scripts/story_generator_03.py:189-231 | the stand-in headline for idea N slugifies to "vanity-fair-feature-idea-N" cut to 40, which is neither generic nor empty |
| Filenames.StandInNeverEscalates | scripts/story_generator_03.py:189-251 | with the stand-in headline the file slug ignores the story and the chosen idea |
| Filenames.CandidatesDistinct | scripts/story_generator_03.py:254-261 | different counters give different file names |
| Filenames.PassedShape | scripts/story_generator_03.py:258-260 | the first n names tried are n different names, and no later name is among them |
| Filenames.UniqueFilename | scripts/story_generator_03.py:254-261 | the name returned is not taken, and is the plain name or the name with the least counter whose predecessors are all taken |
| Filenames.Filename01 | scripts/story_generator.py:158-160 | the file name is the date, a hyphen, a stem, and ".html"; the stem is the cleaned headline cut to 50 characters (a slug-shaped prefix of the cleanup, all of it when it fits) |
| Prose.ClassifyLine | scripts/story_generator_03.py:453-465 | a line is blank exactly when it strips to nothing; it is skipped exactly when its stripped form starts with a skipped marker; words carry the stripped line |
| Prose.SplitParagraphs | scripts/story_generator_03.py:448-474 | the paragraph fold equals the block definition: a paragraph per run of non-blank lines with words, their stripped texts joined by spaces |
| Prose.FoldFresh | scripts/story_generator_03.py:452-474 | starting with an empty paragraph, the fold appends exactly the block definition's paragraphs |
| Prose.ParagraphsNewlineFree | scripts/story_generator_03.py:452-474 | when no line's text carries a line break, no paragraph does either |
| Prose.ParagraphsNonEmpty | scripts/story_generator_03.py:452-474 | no paragraph is empty |
| Prose.SplitParagraphsShape | scripts/story_generator_03.py:448-474 | paragraphs of split lines are non-empty and newline-free |
| Prose.SkippedLineIgnored | scripts/story_generator_03.py:460-465 | a skipped line can be removed from anywhere without changing the paragraphs, under either script's rule (story_generator.py skips only `#` lines) |
| Prose.StoryParagraphs | scripts/story_generator_03.py:448-479 | no paragraph is empty; the line fold is used when it found any paragraph, else the stripped non-blank pieces between blank lines |
| Prose.RenderAnchors | scripts/story_generator_03.py:484-500 | the paragraphs become `<p>` elements in order, and exactly the second one, or the only one, carries the continue-reading anchor |
| Prose.Render | scripts/story_generator_03.py:484-485 | no paragraphs render as exactly the no-content element |
| Prose.Shorten | scripts/story_generator_03.py:545-547 | the result is at most 150 long; a text of at most 150 is kept; a longer one keeps its first 147 characters and ends with "..." |
| Prose.ContentStart | scripts/story_generator.py:257-263 | the start is at most 6 and at most the line count; the line before it is an announcement line, and no line from it up to index 5 is one |
| Prose.FindContentStart | scripts/story_generator.py:257-263 | the loop that breaks after index 5 computes the content start |
| Prose.ContentStartUnique | scripts/story_generator.py:257-263 | those three facts determine the content start |
| Prose.StoryParagraphs01 | scripts/story_generator.py:257-284 | the paragraphs are the blank-line-separated runs of the stripped story's lines from the content start on, with "#" lines skipped without ending a run; each is non-empty and newline-free |
| Prose.Excerpt | scripts/story_generator.py:312-320 | the excerpt is never longer than 150 |
| Prose.ExcerptOfNothing | scripts/story_generator.py:312-314 | with no paragraph the excerpt is "" |
| Prose.ExcerptOfFirstParagraph | scripts/story_generator.py:312-320 | the excerpt of rendered paragraphs is the shortened first paragraph |
| Patterns.Search | scripts/story_generator_03.py:592 | the search finds the leftmost position where the pattern matches, and finds nothing exactly when it matches nowhere |
| Patterns.GridSearchIsFind | scripts/story_generator_03.py:609-610 | searching for the grid pattern finds the same position as a plain substring search, so the `in` test and the substitution see the same markers |
| Patterns.ReplaceOnlyMatch | scripts/story_generator_03.py:588-610 | a substitution where the pattern matches at exactly one span replaces that span and nothing else |
| Patterns.ReplaceInserts | scripts/story_generator_03.py:588-610 | when the pattern matches, the replacement text appears where the first match began |
| Patterns.GridReplaceIsSplitJoin | scripts/story_generator.py:354-355 | substituting for the grid marker replaces every occurrence and leaves the text between them |
| IndexMerge.Bootstrap | scripts/story_generator_03.py:576-588 | a page with a grid is unchanged; a page without one gains a grid when `</section>\s*</main>` matches; otherwise it is unchanged |
| IndexMerge.BootstrapAtSectionMain | scripts/story_generator_03.py:576-588 | on a page without a grid, the only `</section>\s*</main>` span is replaced by the archive section and the rest of the page is kept |
| IndexMerge.BootstrapIdempotent | scripts/story_generator_03.py:576-588 | a second bootstrap changes nothing |
| IndexMerge.PlaceFeatured | scripts/story_generator_03.py:590-605 | the featured card is in the page whenever it had a featured card, a featured section or a main container; otherwise the page is unchanged |
| IndexMerge.FeaturedSpanReplaced | scripts/story_generator_03.py:591-593 | the page's only featured-card span is exchanged for the new card, the rest kept |
| IndexMerge.CardIntoSection | scripts/story_generator_03.py:596-598 | without a card, the new card goes right after the featured section's opening tag |
| IndexMerge.CardIntoMain | scripts/story_generator_03.py:601-605 | without card and section, a new section holding the card follows the main container's opening tag |
| IndexMerge.GridInsert | scripts/story_generator_03.py:608-610 | a page without the grid marker is unchanged |
| IndexMerge.GridInsertEveryMarker | scripts/story_generator.py:354-355 | the page splits at its grid markers into pieces; the update joins the same pieces with marker, newline and card |
| IndexMerge.GridInsertSingle | scripts/story_generator_03.py:608-610 | with one grid marker, the card lands right after it and nothing else changes |
| IndexMerge.Merge03 | scripts/story_generator_03.py:576-610 | when the page still has a grid after the featured step, every grid marker in it is followed by the card and the text between markers is kept (so the result contains the marker followed by the card); otherwise it is the featured step's result |
| IndexMerge.Merge03Untouched | scripts/story_generator_03.py:576-610 | a page with none of the markers is returned unchanged |
| IndexMerge.Merge01 | scripts/story_generator.py:350-355 | a page with neither a featured card nor a grid marker is returned unchanged |
| IndexMerge.Merge01EveryMarker | scripts/story_generator.py:350-355 | after the update every grid marker of the featured-replaced page carries the card |

## Left out

- The language-model calls, the writer's agent and `main` are left out. The ideas text and the reply become parameters.
- Key loading, the environment and `exit` are left out; they are configuration.
- File I/O is left out: `open`, `makedirs`, the `style.css` copy and the template fallbacks. The set of existing names and the index page are parameters.
- The clock is left out. The date strings are parameters.
- The HTML of the story page and of the two index cards is not built. The cards are parameters of the merge.
- The footer-cleaning regex and the cost estimate, which prints a float, are left out.
- The two `MULTILINE` regexes of `story_generator_03.py` lines 440-445 are left out. They remove choice lines and a title before the paragraphs are built. `Prose.StoryParagraphs` takes the text after that step, and its properties hold for any text.
- The `{{IDEA_NUMBER}}` and other template placeholders are left out; they are plain `str.replace` into the opaque template.
- Unicode is left out. `\w`, `\d`, `\s`, `str.lower`, `isupper` and IGNORECASE are modelled on ASCII only.
- Backslashes in `re.sub` replacement text are left out. Python would interpret them as escapes or group references; the model inserts the replacement literally.
- Selection.FirstLooking: the "more than 30% capitals" float test is stated as `10 * upper > 3 * length`. The two agree except for float rounding at exact boundaries.
- Prose.ExcerptOfFirstParagraph: requires the first paragraph to contain no `<`. Otherwise a tag inside the text would end the excerpt early, as it does in the script.
- Prose.Excerpt: only the length bound is stated for every page. The link to the first paragraph is the separate lemma above.
- Filenames.DropListNumber: the general contract only says that a suffix is left. The exact cut is `Filenames.DropListNumberSpelled`, for texts written as number, full stop, spaces and text.
- IndexMerge.Merge03: it is not stated that the card always reaches the grid. A featured-card span that swallows the grid marker would remove it, and the script then skips the grid step.

=== FILE: filenames.dfy ===
/**
 The story file name. story_generator_03.py cleans the headline into a slug,
 looks elsewhere when the slug is empty or the generic
 "vanity-fair-feature-idea", and counts up a suffix until the name is free;
 story_generator.py uses the cleaned headline cut to 50 characters as it is.
 The set of names already on disk is a parameter.
 */
module Filenames {
  import opened Text
  import opened Slug
  import Selection

  const GENERIC := "vanity-fair-feature-idea"
  const STORY_SCAN := 20

  /** A slug that story_generator_03.py tries to replace. */
  predicate Meaningless(slug: string) {
    slug == GENERIC || slug == ""
  }

  /** A story line worth naming the file after: long enough once stripped and not the choice announcement. */
  predicate TitleLine(line: string) {
    |Strip(line)| > 15 && !StartsWith(line, "I choose") && !StartsWith(line, "Idea")
  }

  /** A title line whose cleanup is longer than 10 characters: where the search stops. */
  predicate GoodTitle(line: string) {
    TitleLine(line) && |Clean(line)| > 10
  }

  /** The first good title among the lines. */
  function TitleFromLines(lines: seq<string>): (r: Option<nat>)
    ensures r.Some? ==> r.value < |lines| && GoodTitle(lines[r.value])
    ensures forall j :: 0 <= j < |lines| && (r.None? || j < r.value) ==> !GoodTitle(lines[j])
  {
    var good := seq(|lines|, j requires 0 <= j < |lines| => GoodTitle(lines[j]));
    var r := FirstTrue(good, 0);
    assert forall j :: 0 <= j < |lines| ==> good[j] == GoodTitle(lines[j]);
    r
  }

  /** The first index at or after k holding true. */
  function FirstTrue(bs: seq<bool>, k: nat): (r: Option<nat>)
    decreases |bs| - k
    ensures r.Some? ==> k <= r.value < |bs| && bs[r.value]
    ensures forall j :: k <= j < |bs| && (r.None? || j < r.value) ==> !bs[j]
  {
    if k >= |bs| then None
    else if bs[k] then Some(k)
    else FirstTrue(bs, k + 1)
  }

  /** `re.sub(r'^\d+\.\s*', '', s)`: a leading list number, its full stop and the spaces after it go. */
  function DropListNumber(s: string): (r: string)
    ensures |r| <= |s|
    ensures r == s || (|r| < |s| && r == s[|s| - |r|..])
  {
    var k := DigitRunEnd(s, 0);
    if 0 < k < |s| && s[k] == '.' then s[SkipSpaces(s, k + 1)..] else s
  }

  /** A list number, its full stop and the spaces after it are exactly what goes. */
  lemma {:induction false} DropListNumberSpelled(n: nat, spaces: string, rest: string)
    requires forall i :: 0 <= i < |spaces| ==> IsSpace(spaces[i])
    requires rest == [] || !IsSpace(rest[0])
    ensures DropListNumber(NatToString(n) + "." + spaces + rest) == rest
  {
    var d := NatToString(n);
    var s := d + "." + spaces + rest;
    var k := |d| + 1 + |spaces|;
    assert s[|d|] == '.';
    assert forall m :: 0 <= m < |d| ==> s[m] == d[m];
    DigitRunEndAt(s, 0, |d|);
    var j := SkipSpaces(s, |d| + 1);
    assert forall m :: |d| + 1 <= m < k ==> s[m] == spaces[m - |d| - 1];
    assert k < |s| ==> s[k] == rest[0];
    assert j == k;
    assert s[k..] == rest;
  }

  /** The story's first 20 lines, as the slug search reads them. */
  function StoryLines(story: string): (r: seq<string>)
    ensures |r| <= STORY_SCAN
  {
    Truncate(Lines(Strip(story)), STORY_SCAN)
  }

  /**
   The slug the story offers: that of its first good line among the first 20,
   or None when none of them is good.
   */
  function StoryTitleSlug(story: string): (r: Option<string>)
    ensures r.None? <==> forall j :: 0 <= j < |StoryLines(story)| ==> !GoodTitle(StoryLines(story)[j])
    ensures r.Some? ==> exists i :: 0 <= i < |StoryLines(story)| && GoodTitle(StoryLines(story)[i]) &&
                          (forall j :: 0 <= j < i ==> !GoodTitle(StoryLines(story)[j])) &&
                          r.value == Fit(Clean(StoryLines(story)[i]))
  {
    var lines := StoryLines(story);
    match TitleFromLines(lines)
    case Some(i) => Some(Fit(Clean(lines[i])))
    case None => None
  }

  /**
   The slug of story_generator_03.py: the headline's, unless that is
   meaningless; then that of the first good line among the story's first 20;
   then, if still meaningless, that of the chosen idea's text when there is one.
   When every step fails the last meaningless slug stands.
   */
  function ChooseSlug(headline: string, story: string, chosenIdea: string): (r: string)
    ensures IsSlug(r)
    ensures !Meaningless(Slugify(headline)) ==> r == Slugify(headline)
    ensures Meaningless(Slugify(headline)) && StoryTitleSlug(story).Some? && !Meaningless(StoryTitleSlug(story).value) ==>
              r == StoryTitleSlug(story).value
    ensures Meaningless(Slugify(headline)) && (StoryTitleSlug(story).None? || Meaningless(StoryTitleSlug(story).value)) ==>
              r == (if chosenIdea != "" then Slugify(DropListNumber(chosenIdea))
                    else if StoryTitleSlug(story).None? then Slugify(headline)
                    else StoryTitleSlug(story).value)
    ensures Meaningless(Slugify(headline)) && (StoryTitleSlug(story).None? || Meaningless(StoryTitleSlug(story).value)) &&
              chosenIdea == "" ==>
              Meaningless(r)
  {
    var first := Slugify(headline);
    if !Meaningless(first) then first
    else
      var second := match StoryTitleSlug(story) case Some(s) => s case None => first;
      if !Meaningless(second) then second
      else if chosenIdea != "" then Slugify(DropListNumber(chosenIdea))
      else second
  }

  // ---------------------------------------------------------------------------
  // The stand-in headline never escalates

  /** The cleanup of a headline with a digit tail, computed piece by piece. */
  lemma {:induction false} DropPunctuationAppend(a: string, b: string)
    decreases |a|
    ensures DropPunctuation(a + b) == DropPunctuation(a) + DropPunctuation(b)
  {
    if |a| == 0 {
      assert a + b == b;
    } else {
      assert (a + b)[0] == a[0];
      assert (a + b)[1..] == a[1..] + b;
      DropPunctuationAppend(a[1..], b);
      ConcatAssoc(if IsKept(a[0]) then [a[0]] else [], DropPunctuation(a[1..]), DropPunctuation(b));
    }
  }

  lemma {:induction false} LowerAppend(a: string, b: string)
    ensures Lower(a + b) == Lower(a) + Lower(b)
  {
  }

  /** No two separators in a row. */
  predicate SingleSeparators(s: string) {
    forall i :: 0 <= i < |s| - 1 ==> !(IsSeparator(s[i]) && IsSeparator(s[i + 1]))
  }

  /** Each separator turned into a hyphen. */
  function Dashed(s: string): (r: string)
    ensures |r| == |s|
  {
    seq(|s|, i requires 0 <= i < |s| => if IsSeparator(s[i]) then '-' else s[i])
  }

  /** With no runs to collapse, collapsing only turns each separator into a hyphen. */
  lemma {:induction false} CollapseSingle(s: string)
    requires SingleSeparators(s)
    decreases |s|
    ensures CollapseSeparators(s) == Dashed(s)
  {
    if |s| > 0 {
      var rest := s[1..];
      assert SingleSeparators(rest) by {
        assert forall i :: 0 <= i < |rest| ==> rest[i] == s[i + 1];
      }
      CollapseSingle(rest);
      if IsSeparator(s[0]) {
        assert SkipDropped(s, Separators, 1) == 1 by {
          if |s| > 1 { assert !IsSeparator(s[1]); }
        }
      }
      assert Dashed(s) == [Dashed(s)[0]] + Dashed(rest);
    }
  }

  const STAND_IN_WORDS := "vanity fair feature"
  const STAND_IN_IDEA := " idea "
  const STAND_IN_TEXT := STAND_IN_WORDS + STAND_IN_IDEA
  const STAND_IN_SLUG := "vanity-fair-feature-idea-"

  predicate AllDigits(s: string) {
    forall i :: 0 <= i < |s| ==> IsDigit(s[i])
  }

  predicate AllKept(s: string) {
    forall i :: 0 <= i < |s| ==> IsKept(s[i])
  }

  lemma {:induction false} AllKeptAppend(a: string, b: string)
    requires AllKept(a) && AllKept(b)
    ensures AllKept(a + b)
  {
  }

  /** The fixed words of the stand-in headline in lower case. */
  lemma {:induction false} StandInPrefixLower()
    ensures Lower("Vanity Fair Feature: Idea ") == STAND_IN_WORDS + [':'] + STAND_IN_IDEA
  {
  }

  /** The stand-in headline in lower case: the two word groups around the colon. */
  lemma {:induction false} StandInLower(digits: string)
    requires AllDigits(digits)
    ensures Lower(Selection.FallbackHeadline(digits)) == STAND_IN_WORDS + ([':'] + (STAND_IN_IDEA + digits))
  {
    LowerAppend("Vanity Fair Feature: Idea ", digits);
    StandInPrefixLower();
    assert Lower(digits) == digits;
    ConcatAssoc(STAND_IN_WORDS, [':'], STAND_IN_IDEA);
    ConcatAssoc([':'], STAND_IN_IDEA, digits);
    ConcatAssoc(STAND_IN_WORDS, [':'] + STAND_IN_IDEA, digits);
  }

  lemma {:induction false} StandInWordsKept()
    ensures AllKept(STAND_IN_WORDS) && AllKept(STAND_IN_IDEA)
  {
  }

  /** Dropping punctuation from kept text around a colon removes just the colon. */
  lemma {:induction false} KeptAroundColon(w: string, t: string)
    requires AllKept(w) && AllKept(t)
    ensures DropPunctuation(w + ([':'] + t)) == w + t
  {
    var c := [':'] + t;
    assert DropPunctuation(c) == DropPunctuation(t) by {
      assert c[1..] == t;
      assert !IsKept(c[0]);
    }
    DropPunctuationAppend(w, c);
  }

  /** The stand-in headline's characters, before collapsing: lower case, the colon gone. */
  lemma {:induction false} StandInKept(digits: string)
    requires AllDigits(digits)
    ensures DropPunctuation(Lower(Selection.FallbackHeadline(digits))) == STAND_IN_TEXT + digits
  {
    StandInLower(digits);
    StandInWordsKept();
    assert AllKept(digits);
    AllKeptAppend(STAND_IN_IDEA, digits);
    KeptAroundColon(STAND_IN_WORDS, STAND_IN_IDEA + digits);
    ConcatAssoc(STAND_IN_WORDS, STAND_IN_IDEA, digits);
  }

  lemma {:induction false} SingleSeparatorsAppend(a: string, b: string)
    requires SingleSeparators(a) && SingleSeparators(b)
    requires |a| == 0 || |b| == 0 || !(IsSeparator(a[|a| - 1]) && IsSeparator(b[0]))
    ensures SingleSeparators(a + b)
  {
    var s := a + b;
    forall i | 0 <= i < |s| - 1 ensures !(IsSeparator(s[i]) && IsSeparator(s[i + 1])) {
      if i + 1 < |a| {
        assert s[i] == a[i] && s[i + 1] == a[i + 1];
      } else if i >= |a| {
        assert s[i] == b[i - |a|] && s[i + 1] == b[i + 1 - |a|];
      }
    }
  }

  lemma {:induction false} DashedAppend(a: string, b: string)
    ensures Dashed(a + b) == Dashed(a) + Dashed(b)
  {
  }

  lemma {:induction false} StandInWordsSingle()
    ensures SingleSeparators(STAND_IN_WORDS)
  {
  }

  lemma {:induction false} StandInIdeaSingle()
    ensures SingleSeparators(STAND_IN_IDEA)
  {
  }

  lemma {:induction false} StandInTextSingle()
    ensures SingleSeparators(STAND_IN_TEXT)
  {
    StandInWordsSingle();
    StandInIdeaSingle();
    assert STAND_IN_WORDS[|STAND_IN_WORDS| - 1] == 'e';
    SingleSeparatorsAppend(STAND_IN_WORDS, STAND_IN_IDEA);
  }

  lemma {:induction false} StandInTextDashed()
    ensures Dashed(STAND_IN_TEXT) == STAND_IN_SLUG
  {
    DashedAppend(STAND_IN_WORDS, STAND_IN_IDEA);
    assert Dashed(STAND_IN_WORDS) == "vanity-fair-feature";
    assert Dashed(STAND_IN_IDEA) == "-idea-";
  }

  /** Collapsing the kept characters of the stand-in gives the generic words, a hyphen and the number. */
  lemma {:induction false} StandInCollapsed(digits: string)
    requires AllDigits(digits) && |digits| > 0
    ensures CollapseSeparators(STAND_IN_TEXT + digits) == STAND_IN_SLUG + digits
  {
    StandInTextSingle();
    StandInTextDashed();
    assert SingleSeparators(digits);
    SingleSeparatorsAppend(STAND_IN_TEXT, digits);
    CollapseSingle(STAND_IN_TEXT + digits);
    DashedAppend(STAND_IN_TEXT, digits);
    assert Dashed(digits) == digits;
  }

  /**
   The stand-in headline "Vanity Fair Feature: Idea N" cleans to the generic
   words followed by the number, cut to 40 characters: never the generic slug
   itself and never empty, so it never sets off the search for a better name.
   */
  lemma {:induction false} StandInSlug(n: nat)
    ensures Slugify(Selection.FallbackHeadline(NatToString(n))) == Truncate(STAND_IN_SLUG + NatToString(n), SLUG_LIMIT)
    ensures !Meaningless(Slugify(Selection.FallbackHeadline(NatToString(n))))
  {
    var digits := NatToString(n);
    StandInKept(digits);
    StandInCollapsed(digits);
    var c := STAND_IN_SLUG + digits;
    assert Clean(Selection.FallbackHeadline(digits)) == c;
    var t := Truncate(c, SLUG_LIMIT);
    assert |t| > 25;
    assert t[0] == 'v';
    assert t[|t| - 1] == digits[|t| - 26];
    assert TrimStart(t, Dashes) == 0;
    assert TrimEnd(t, Dashes) == |t|;
    assert Fit(c) == t;
    assert t != GENERIC by { assert |t| != |GENERIC|; }
  }

  /** With the stand-in headline, the file is named after the headline whatever the story says. */
  lemma {:induction false} StandInNeverEscalates(n: nat, story: string, chosenIdea: string)
    ensures ChooseSlug(Selection.FallbackHeadline(NatToString(n)), story, chosenIdea)
            == Truncate(STAND_IN_SLUG + NatToString(n), SLUG_LIMIT)
  {
    StandInSlug(n);
  }

  // ---------------------------------------------------------------------------
  // A free file name

  /** `{date}-{slug}.html` for k = 0, `{date}-{slug}-{k}.html` after that. */
  function Candidate(date: string, slug: string, k: nat): string {
    if k == 0 then date + "-" + slug + ".html"
    else date + "-" + slug + "-" + NatToString(k) + ".html"
  }

  /** Different counters give different names. */
  lemma {:induction false} CandidatesDistinct(date: string, slug: string, j: nat, k: nat)
    requires j < k
    ensures Candidate(date, slug, j) != Candidate(date, slug, k)
  {
    var pre := date + "-" + slug + "-";
    if j == 0 {
      assert |Candidate(date, slug, j)| < |Candidate(date, slug, k)|;
    } else if Candidate(date, slug, j) == Candidate(date, slug, k) {
      var a := NatToString(j);
      var b := NatToString(k);
      assert |a| == |b|;
      assert (pre + a + ".html")[|pre|..|pre| + |a|] == a;
      assert (pre + b + ".html")[|pre|..|pre| + |b|] == b;
      NatToStringInjective(j, k);
    }
  }

  /** The names tried and found taken before the n-th candidate. */
  function Passed(date: string, slug: string, n: nat): set<string> {
    if n == 0 then {} else Passed(date, slug, n - 1) + {Candidate(date, slug, n - 1)}
  }

  /** The first n candidates are n different names, and no later candidate is among them. */
  lemma {:induction false} PassedShape(date: string, slug: string, n: nat)
    ensures |Passed(date, slug, n)| == n
    ensures forall k: nat :: k >= n ==> Candidate(date, slug, k) !in Passed(date, slug, n)
  {
    if n > 0 {
      PassedShape(date, slug, n - 1);
      forall k: nat | k >= n ensures Candidate(date, slug, k) != Candidate(date, slug, n - 1) {
        CandidatesDistinct(date, slug, n - 1, k);
      }
    }
  }

  /**
   The counter loop of save_to_website: the plain name if it is free, else
   the name with the least suffix 1, 2, ... that is free. It stops because
   the names it passes over are different members of the finite set.
   */
  method UniqueFilename(date: string, slug: string, existing: set<string>) returns (name: string)
    ensures name !in existing
    ensures exists k: nat :: name == Candidate(date, slug, k) &&
              forall j :: 0 <= j < k ==> Candidate(date, slug, j) in existing
  {
    var counter: nat := 1;
    name := Candidate(date, slug, 0);
    while name in existing
      invariant name == Candidate(date, slug, counter - 1)
      invariant forall j :: 0 <= j < counter - 1 ==> Candidate(date, slug, j) in existing
      invariant Passed(date, slug, counter - 1) <= existing
      invariant counter - 1 <= |existing|
      decreases |existing| - (counter - 1)
    {
      PassedShape(date, slug, counter);
      SubsetNotLarger(Passed(date, slug, counter), existing);
      name := Candidate(date, slug, counter);
      counter := counter + 1;
    }
  }

  lemma {:induction false} SubsetNotLarger(a: set<string>, b: set<string>)
    requires a <= b
    decreases |b|
    ensures |a| <= |b|
  {
    if a != {} {
      var x :| x in a;
      SubsetNotLarger(a - {x}, b - {x});
    }
  }

  // ---------------------------------------------------------------------------
  // story_generator.py

  /** The file name of story_generator.py: date, hyphen, the cleanup cut to 50, ".html". */
  function Filename01(date: string, headline: string): (r: string)
    ensures |date| + 6 <= |r| <= |date| + 6 + BASE_LIMIT_01
    ensures r[..|date|] == date && r[|date|] == '-' && r[|r| - 5..] == ".html"
    ensures SlugShaped(r[|date| + 1..|r| - 5])
    ensures var stem := r[|date| + 1..|r| - 5];
            |stem| <= |Clean(headline)| && stem == Clean(headline)[..|stem|] &&
            (|Clean(headline)| <= BASE_LIMIT_01 ==> stem == Clean(headline)) &&
            (|Clean(headline)| > BASE_LIMIT_01 ==> |stem| == BASE_LIMIT_01)
  {
    var base := FilenameBase(headline);
    var r := date + "-" + base + ".html";
    assert r[|date| + 1..|r| - 5] == base;
    r
  }
}

=== FILE: ideas.dfy ===
/**
 The idea-list parsers of the two scripts.

 story_generator_03.py scans the editor's numbered list into entries
 (number, text), continuation lines joined on with a space, then splits each
 entry's text into a title and a description. story_generator.py only keeps
 the lines that look numbered.
 */
module Ideas {
  import opened Text
  import Patterns

  datatype IdeaEntry = IdeaEntry(number: nat, text: string)

  datatype ParsedIdea = ParsedIdea(title: string, description: string, fullText: string)

  /**
   One batch of parsed ideas: the entries in list order, `idea_dict`
   (number to text) and `parsed_ideas` (number to title and description).
   */
  datatype IdeaBatch = IdeaBatch(entries: seq<IdeaEntry>, texts: map<nat, string>, parsed: map<nat, ParsedIdea>)

  /** `[line.strip() for line in ideas.split('\n') if line.strip()]`, shared by both scripts. */
  function IdeaLines(ideas: string): seq<string> {
    StrippedNonBlank(Lines(ideas))
  }

  // ---------------------------------------------------------------------------
  // story_generator_03.py: the line scanner

  /** `re.match(r'^\d+\.', line)`: leading digits, then a full stop. */
  predicate IsNumbered(line: string) {
    var k := DigitRunEnd(line, 0);
    0 < k < |line| && line[k] == '.'
  }

  /** `int(line.split('.', 1)[0])`: the leading digits are exactly the text before the first full stop. */
  function LineNumber(line: string): nat
    requires IsNumbered(line)
  {
    var k := DigitRunEnd(line, 0);
    assert forall i :: 0 <= i < k ==> IsDigit(line[..k][i]);
    DigitsValue(line[..k])
  }

  /** `line.split('.', 1)[1].strip()`. */
  function LineText(line: string): string
    requires IsNumbered(line)
  {
    Strip(line[DigitRunEnd(line, 0) + 1..])
  }

  /** A line of the list, read: a numbered line with its number and stripped text, or any other line. */
  datatype Line = Numbered(number: nat, text: string) | Plain(text: string)

  function Classify(line: string): (r: Line)
    ensures r.Numbered? <==> IsNumbered(line)
    ensures r.Plain? ==> r.text == line
    ensures r.Numbered? ==> |r.text| < |line|
  {
    if IsNumbered(line) then Numbered(LineNumber(line), LineText(line)) else Plain(line)
  }

  function ClassifyAll(lines: seq<string>): (r: seq<Line>)
    ensures |r| == |lines|
    ensures forall i :: 0 <= i < |r| ==> r[i] == Classify(lines[i])
  {
    seq(|lines|, i requires 0 <= i < |lines| => Classify(lines[i]))
  }

  /** A number written out and followed by a full stop reads back as that number; the rest, stripped, is the text. */
  lemma ClassifyNumbered(n: nat, rest: string)
    ensures Classify(NatToString(n) + "." + rest) == Numbered(n, Strip(rest))
  {
    var digits := NatToString(n);
    var line := digits + "." + rest;
    assert forall i :: 0 <= i < |digits| ==> line[i] == digits[i];
    DigitRunEndAt(line, 0, |digits|);
    assert line[..|digits|] == digits;
    DigitsValueOfNatToString(n);
    assert line[|digits| + 1..] == rest;
  }

  /** Saves the idea being collected, if there is one and its text is non-empty. */
  function Flush(current: Option<IdeaEntry>, acc: seq<IdeaEntry>): seq<IdeaEntry> {
    if current.Some? && current.value.text != "" then acc + [current.value] else acc
  }

  /** An unnumbered line continues the current idea, after a space. */
  function Continue(current: Option<IdeaEntry>, text: string): Option<IdeaEntry> {
    if current.None? then None else Some(current.value.(text := current.value.text + " " + text))
  }

  /** The loop of write_feature: a numbered line starts an idea, any other line continues the current one. */
  function Scan(lines: seq<Line>, current: Option<IdeaEntry>, acc: seq<IdeaEntry>): seq<IdeaEntry>
    decreases |lines|
  {
    if |lines| == 0 then Flush(current, acc)
    else match lines[0]
      case Numbered(n, t) => Scan(lines[1..], Some(IdeaEntry(n, t)), Flush(current, acc))
      case Plain(t) => Scan(lines[1..], Continue(current, t), acc)
  }

  // The reference reading: the list as blocks, each a numbered line and the unnumbered lines under it.

  /** How many lines come before the first numbered one. */
  function LeadCount(lines: seq<Line>): (k: nat)
    ensures k <= |lines|
    ensures k < |lines| ==> lines[k].Numbered?
  {
    if |lines| == 0 || lines[0].Numbered? then 0 else 1 + LeadCount(lines[1..])
  }

  lemma {:induction false} LeadIsPlain(lines: seq<Line>)
    ensures forall i :: 0 <= i < LeadCount(lines) ==> lines[i].Plain?
  {
    if |lines| > 0 && lines[0].Plain? {
      LeadIsPlain(lines[1..]);
      assert forall i :: 1 <= i < LeadCount(lines) ==> lines[i] == lines[1..][i - 1];
    }
  }

  /** Continuation lines as they are appended: each one preceded by a space. */
  function Continuation(lines: seq<Line>): string {
    if |lines| == 0 then "" else " " + lines[0].text + Continuation(lines[1..])
  }

  function NumberedCount(lines: seq<Line>): nat {
    if |lines| == 0 then 0 else (if lines[0].Numbered? then 1 else 0) + NumberedCount(lines[1..])
  }

  /** The leading numbers of the numbered lines. */
  function Numbers(lines: seq<Line>): set<nat> {
    if |lines| == 0 then {}
    else (if lines[0].Numbered? then {lines[0].number} else {}) + Numbers(lines[1..])
  }

  lemma {:induction false} SkipPlainCounts(lines: seq<Line>, k: nat)
    requires k <= |lines|
    requires forall i :: 0 <= i < k ==> lines[i].Plain?
    ensures NumberedCount(lines[k..]) == NumberedCount(lines)
    ensures Numbers(lines[k..]) == Numbers(lines)
  {
    if k > 0 {
      assert lines[1..][k - 1..] == lines[k..];
      SkipPlainCounts(lines[1..], k - 1);
    }
  }

  function Keep(e: IdeaEntry): seq<IdeaEntry> {
    if e.text != "" then [e] else []
  }

  /**
   One entry per numbered line whose collected text is non-empty, keyed by
   its leading number; lines before the first numbered line are ignored.
   */
  function Blocks(lines: seq<Line>): (r: seq<IdeaEntry>)
    decreases |lines|
    ensures |r| <= NumberedCount(lines)
  {
    if |lines| == 0 then []
    else if lines[0].Plain? then Blocks(lines[1..])
    else
      var rest := lines[1..];
      var j := LeadCount(rest);
      LeadIsPlain(rest);
      SkipPlainCounts(rest, j);
      Keep(IdeaEntry(lines[0].number, lines[0].text + Continuation(rest[..j]))) + Blocks(rest[j..])
  }

  /** Every entry has text, and its number is one a numbered line carries. */
  lemma {:induction false} BlocksEntries(lines: seq<Line>)
    decreases |lines|
    ensures forall i :: 0 <= i < |Blocks(lines)| ==> Blocks(lines)[i].text != "" && Blocks(lines)[i].number in Numbers(lines)
  {
    if |lines| > 0 {
      var rest := lines[1..];
      if lines[0].Plain? {
        BlocksEntries(rest);
      } else {
        var j := LeadCount(rest);
        LeadIsPlain(rest);
        SkipPlainCounts(rest, j);
        BlocksEntries(rest[j..]);
      }
    }
  }

  lemma {:induction false} BlocksSkipPlain(lines: seq<Line>, k: nat)
    requires k <= |lines|
    requires forall i :: 0 <= i < k ==> lines[i].Plain?
    ensures Blocks(lines[k..]) == Blocks(lines)
  {
    if k > 0 {
      assert lines[1..][k - 1..] == lines[k..];
      BlocksSkipPlain(lines[1..], k - 1);
    }
  }

  function Extend(current: Option<IdeaEntry>, lines: seq<Line>): Option<IdeaEntry> {
    if current.None? then None else Some(current.value.(text := current.value.text + Continuation(lines)))
  }

  lemma ExtendNothing(current: Option<IdeaEntry>)
    ensures Extend(current, []) == current
  {
    if current.Some? {
      assert current.value.(text := current.value.text + Continuation([])) == current.value;
    }
  }

  lemma ExtendCons(current: Option<IdeaEntry>, line: Line, lines: seq<Line>)
    ensures Extend(current, [line] + lines) == Extend(Continue(current, line.text), lines)
  {
    assert ([line] + lines)[1..] == lines;
    if current.Some? {
      var t := current.value.text;
      assert t + Continuation([line] + lines) == t + " " + line.text + Continuation(lines);
    }
  }

  /** The block a numbered line heads, followed by the blocks after it. */
  lemma BlocksAtNumbered(lines: seq<Line>)
    requires |lines| > 0 && lines[0].Numbered?
    ensures var rest := lines[1..];
            Blocks(lines) == Keep(IdeaEntry(lines[0].number, lines[0].text + Continuation(rest[..LeadCount(rest)]))) + Blocks(rest)
  {
    LeadIsPlain(lines[1..]);
    BlocksSkipPlain(lines[1..], LeadCount(lines[1..]));
  }

  lemma ScanAtNumbered(lines: seq<Line>, current: Option<IdeaEntry>, acc: seq<IdeaEntry>)
    requires |lines| > 0 && lines[0].Numbered?
    ensures Scan(lines, current, acc) == Scan(lines[1..], Some(IdeaEntry(lines[0].number, lines[0].text)), Flush(current, acc))
  {
  }

  lemma FlushExtended(first: IdeaEntry, continuation: seq<Line>, acc: seq<IdeaEntry>)
    ensures Flush(Extend(Some(first), continuation), acc) == acc + Keep(IdeaEntry(first.number, first.text + Continuation(continuation)))
  {
  }

  /** What the scanner's result at a numbered line must equal, in block terms. */
  lemma NumberedBlocksForm(lines: seq<Line>, current: Option<IdeaEntry>, acc: seq<IdeaEntry>)
    requires |lines| > 0 && lines[0].Numbered?
    ensures var rest := lines[1..];
            var e := IdeaEntry(lines[0].number, lines[0].text + Continuation(rest[..LeadCount(rest)]));
            Flush(current, acc) + Keep(e) + Blocks(rest) == Flush(Extend(current, lines[..LeadCount(lines)]), acc) + Blocks(lines)
  {
    var rest := lines[1..];
    var e := IdeaEntry(lines[0].number, lines[0].text + Continuation(rest[..LeadCount(rest)]));
    var flushed := Flush(current, acc);
    calc {
      flushed + Keep(e) + Blocks(rest);
      flushed + (Keep(e) + Blocks(rest));
    == { BlocksAtNumbered(lines); }
      flushed + Blocks(lines);
    == { ExtendNothing(current); }
      Flush(Extend(current, []), acc) + Blocks(lines);
    == { assert LeadCount(lines) == 0; assert lines[..0] == []; }
      Flush(Extend(current, lines[..LeadCount(lines)]), acc) + Blocks(lines);
    }
  }

  /** The scanner step at a numbered line, given the scanner's behaviour on the rest. */
  lemma ScanNumberedStep(lines: seq<Line>, current: Option<IdeaEntry>, acc: seq<IdeaEntry>)
    requires |lines| > 0 && lines[0].Numbered?
    requires var rest := lines[1..];
             var first := IdeaEntry(lines[0].number, lines[0].text);
             Scan(rest, Some(first), Flush(current, acc))
               == Flush(Extend(Some(first), rest[..LeadCount(rest)]), Flush(current, acc)) + Blocks(rest)
    ensures Scan(lines, current, acc) == Flush(Extend(current, lines[..LeadCount(lines)]), acc) + Blocks(lines)
  {
    var rest := lines[1..];
    var continuation := rest[..LeadCount(rest)];
    var first := IdeaEntry(lines[0].number, lines[0].text);
    ScanAtNumbered(lines, current, acc);
    FlushExtended(first, continuation, Flush(current, acc));
    NumberedBlocksForm(lines, current, acc);
  }

  /** The scanner step at an unnumbered line, given the scanner's behaviour on the rest. */
  lemma ScanPlainStep(lines: seq<Line>, current: Option<IdeaEntry>, acc: seq<IdeaEntry>)
    requires |lines| > 0 && lines[0].Plain?
    requires var rest := lines[1..];
             var next := Continue(current, lines[0].text);
             Scan(rest, next, acc) == Flush(Extend(next, rest[..LeadCount(rest)]), acc) + Blocks(rest)
    ensures Scan(lines, current, acc) == Flush(Extend(current, lines[..LeadCount(lines)]), acc) + Blocks(lines)
  {
    var rest := lines[1..];
    var j := LeadCount(rest);
    assert LeadCount(lines) == j + 1;
    assert lines[..j + 1] == [lines[0]] + rest[..j];
    ExtendCons(current, lines[0], rest[..j]);
  }

  /** The scanner, started anywhere, finishes the current idea with the leading unnumbered lines and then reads blocks. */
  lemma {:induction false} ScanIsBlocks(lines: seq<Line>, current: Option<IdeaEntry>, acc: seq<IdeaEntry>)
    decreases |lines|
    ensures Scan(lines, current, acc) == Flush(Extend(current, lines[..LeadCount(lines)]), acc) + Blocks(lines)
  {
    if |lines| == 0 {
      ExtendNothing(current);
    } else if lines[0].Numbered? {
      ScanIsBlocks(lines[1..], Some(IdeaEntry(lines[0].number, lines[0].text)), Flush(current, acc));
      ScanNumberedStep(lines, current, acc);
    } else {
      ScanIsBlocks(lines[1..], Continue(current, lines[0].text), acc);
      ScanPlainStep(lines, current, acc);
    }
  }

  /**
   The idea list of write_feature in story_generator_03.py: the scanner
   agrees with the block reading, and every entry it keeps has text and a
   number some numbered line carries.
   */
  function ParseIdeaList(lines: seq<string>): (r: seq<IdeaEntry>)
    ensures r == Blocks(ClassifyAll(lines))
    ensures forall i :: 0 <= i < |r| ==> r[i].text != "" && r[i].number in Numbers(ClassifyAll(lines))
  {
    var ls := ClassifyAll(lines);
    ScanIsBlocks(ls, None, []);
    BlocksEntries(ls);
    Scan(ls, None, [])
  }

  /** Lines before the first numbered line are ignored. */
  lemma UnnumberedPrefixIgnored(prefix: seq<string>, lines: seq<string>)
    requires forall i :: 0 <= i < |prefix| ==> !IsNumbered(prefix[i])
    ensures ParseIdeaList(prefix + lines) == ParseIdeaList(lines)
  {
    var all := ClassifyAll(prefix + lines);
    BlocksSkipPlain(all, |prefix|);
    assert all[|prefix|..] == ClassifyAll(lines);
  }

  // ---------------------------------------------------------------------------
  // story_generator_03.py: title and description of one idea

  /** A quoted run: two '"' with at least one non-quote character and no '"' between them. */
  predicate QuotedRun(s: string, p: nat, q: nat) {
    p + 1 < q < |s| && s[p] == '"' && s[q] == '"' && forall m :: p < m < q ==> s[m] != '"'
  }

  ghost predicate NoQuotedRun(s: string) {
    forall p: nat, q: nat :: !QuotedRun(s, p, q)
  }

  ghost predicate LeftmostQuotedRun(s: string, p: nat, q: nat) {
    QuotedRun(s, p, q) && forall p': nat, q': nat :: p' < p ==> !QuotedRun(s, p', q')
  }

  /** `re.search(r'"([^"]+)"', s)` from position `start`: the positions of the two quotes. */
  function FirstQuoted(s: string, start: nat): (r: Option<(nat, nat)>)
    decreases |s| - start
    ensures r.Some? ==> start <= r.value.0 && QuotedRun(s, r.value.0, r.value.1)
    ensures r.Some? ==> forall p: nat, q: nat :: start <= p < r.value.0 ==> !QuotedRun(s, p, q)
    ensures r.None? ==> forall p: nat, q: nat :: start <= p ==> !QuotedRun(s, p, q)
  {
    match FindChar(s, '"', start)
    case None => None
    case Some(p) =>
      match FindChar(s, '"', p + 1)
      case None => None
      case Some(q) =>
        if q > p + 1 then Some((p, q))
        else
          assert forall q': nat :: !QuotedRun(s, p, q');
          FirstQuoted(s, q)
  }

  /** The run FirstQuoted finds from the start is the one and only leftmost quoted run. */
  lemma FirstQuotedIsLeftmost(s: string)
    ensures FirstQuoted(s, 0).None? <==> NoQuotedRun(s)
    ensures forall p: nat, q: nat :: LeftmostQuotedRun(s, p, q) <==> FirstQuoted(s, 0) == Some((p, q))
  {
    match FirstQuoted(s, 0)
    case None =>
    case Some((p, q)) =>
      assert LeftmostQuotedRun(s, p, q);
      forall p': nat, q': nat | LeftmostQuotedRun(s, p', q') ensures p' == p && q' == q {
        assert !(p' < p) && !(p < p');
      }
  }

  predicate FirstColonAt(s: string, c: nat) {
    c < |s| && s[c] == ':' && forall m :: 0 <= m < c ==> s[m] != ':'
  }

  /** The text with every `"…":` label and the whitespace after it removed, then stripped. */
  function LabelFreeDescription(text: string): string {
    Strip(Patterns.ReplaceAll(Patterns.QuotedLabel, text, ""))
  }

  /**
   The split, written as the source's branches; the quoted branch takes
   `quotedDescription` as its description.
   */
  function SplitIdeaWith(text: string, quotedDescription: string): Option<ParsedIdea> {
    match FirstQuoted(text, 0)
    case Some(run) => Some(ParsedIdea(text[run.0 + 1..run.1], quotedDescription, text))
    case None =>
      match FindChar(text, ':', 0)
      case Some(c) => Some(ParsedIdea(Strip(text[..c]), Strip(text[c + 1..]), text))
      case None => None
  }

  lemma SplitIdeaNone(text: string, description: string)
    ensures SplitIdeaWith(text, description).None? <==> NoQuotedRun(text) && (forall m :: 0 <= m < |text| ==> text[m] != ':')
  {
    FirstQuotedIsLeftmost(text);
  }

  lemma QuotedBranch(text: string, description: string, p: nat, q: nat)
    requires FirstQuoted(text, 0) == Some((p, q))
    ensures SplitIdeaWith(text, description) == Some(ParsedIdea(text[p + 1..q], description, text))
  {
  }

  lemma SplitIdeaQuoted(text: string, description: string)
    ensures forall p: nat, q: nat :: LeftmostQuotedRun(text, p, q) ==>
              SplitIdeaWith(text, description) == Some(ParsedIdea(text[p + 1..q], description, text))
  {
    FirstQuotedIsLeftmost(text);
    forall p: nat, q: nat | LeftmostQuotedRun(text, p, q)
      ensures SplitIdeaWith(text, description) == Some(ParsedIdea(text[p + 1..q], description, text))
    {
      QuotedBranch(text, description, p, q);
    }
  }

  lemma FirstColonFound(text: string, c: nat)
    requires FirstColonAt(text, c)
    ensures FindChar(text, ':', 0) == Some(c)
  {
  }

  lemma NoQuotedRunNotFound(text: string)
    requires NoQuotedRun(text)
    ensures FirstQuoted(text, 0).None?
  {
  }

  lemma SplitIdeaColon(text: string, description: string)
    ensures forall c: nat :: FirstColonAt(text, c) && NoQuotedRun(text) ==>
              SplitIdeaWith(text, description) == Some(ParsedIdea(Strip(text[..c]), Strip(text[c + 1..]), text))
  {
    forall c: nat | FirstColonAt(text, c) && NoQuotedRun(text)
      ensures SplitIdeaWith(text, description) == Some(ParsedIdea(Strip(text[..c]), Strip(text[c + 1..]), text))
    {
      FirstColonFound(text, c);
      NoQuotedRunNotFound(text);
    }
  }

  /**
   The title/description split of one idea: the first quoted run is the title;
   failing that, the halves around the first colon; failing both, no parse.
   */
  function SplitIdea(text: string): (r: Option<ParsedIdea>)
    ensures r.None? <==> NoQuotedRun(text) && (forall m :: 0 <= m < |text| ==> text[m] != ':')
    ensures r.Some? ==> r.value.fullText == text
    ensures forall p: nat, q: nat :: LeftmostQuotedRun(text, p, q) ==>
              r == Some(ParsedIdea(text[p + 1..q], LabelFreeDescription(text), text))
    ensures forall c: nat :: FirstColonAt(text, c) && NoQuotedRun(text) ==>
              r == Some(ParsedIdea(Strip(text[..c]), Strip(text[c + 1..]), text))
  {
    var description := LabelFreeDescription(text);
    SplitIdeaNone(text, description);
    SplitIdeaQuoted(text, description);
    SplitIdeaColon(text, description);
    SplitIdeaWith(text, description)
  }

  /**
   An idea written `"Title": description` (the form the editor is asked for)
   has that title, and the description without the label.
   */
  lemma QuotedTitleForm(title: string, description: string)
    requires title != [] && '"' !in title && '"' !in description
    requires description == [] || !IsSpace(description[0])
    ensures var text := "\"" + title + "\": " + description;
            SplitIdea(text) == Some(ParsedIdea(title, Strip(description), text))
  {
    var text := "\"" + title + "\": " + description;
    var q := |title| + 1;
    var e := q + 3;
    assert text[q] == '"' && text[q + 1] == ':' && text[q + 2] == ' ';
    assert text[e..] == description;
    assert forall m :: 0 < m < q ==> text[m] != '"' by {
      forall m | 0 < m < q ensures text[m] != '"' {
        assert text[m] == title[m - 1];
      }
    }
    assert forall m :: e <= m < |text| ==> text[m] != '"' by {
      forall m | e <= m < |text| ensures text[m] != '"' {
        assert text[m] == description[m - e];
      }
    }
    assert QuotedRun(text, 0, q);
    assert LeftmostQuotedRun(text, 0, q);
    assert text[1..q] == title;
    assert FindChar(text, '"', 1) == Some(q);
    assert SkipSpaces(text, q + 2) == e;
    assert Patterns.MatchEnd(Patterns.QuotedLabel, text, 0) == Some(e);
    forall j: nat | j < 0 || e <= j ensures Patterns.MatchEnd(Patterns.QuotedLabel, text, j).None? {
      assert j >= |text| || text[j] != '"';
    }
    Patterns.ReplaceOnlyMatch(Patterns.QuotedLabel, text, 0, e, "");
    assert Patterns.ReplaceAll(Patterns.QuotedLabel, text, "") == description;
  }

  // ---------------------------------------------------------------------------
  // story_generator_03.py: the two dictionaries

  /** The i-th assignment sets its key, and no later assignment sets the same key again. */
  predicate LastAssigned<V>(assignments: seq<(nat, Option<V>)>, i: nat) {
    i < |assignments| && assignments[i].1.Some? &&
    forall j :: i < j < |assignments| && assignments[j].1.Some? ==> assignments[j].0 != assignments[i].0
  }

  /**
   A dict filled by `d[k] = v` in list order, an assignment with no value
   being skipped: a key is present iff some assignment sets it, and holds the
   value of the last one that does.
   */
  function Assign<V>(assignments: seq<(nat, Option<V>)>): (m: map<nat, V>)
    ensures forall k :: k in m <==> exists i :: 0 <= i < |assignments| && assignments[i].0 == k && assignments[i].1.Some?
  {
    if |assignments| == 0 then map[]
    else
      var init := assignments[..|assignments| - 1];
      var last := assignments[|assignments| - 1];
      var m := Assign(init);
      assert forall i :: 0 <= i < |init| ==> init[i] == assignments[i];
      if last.1.Some? then m[last.0 := last.1.value] else m
  }

  /** The last assignment to a key is the value the dict holds for it. */
  lemma {:induction false} AssignLast<V>(assignments: seq<(nat, Option<V>)>, i: nat)
    requires LastAssigned(assignments, i)
    ensures assignments[i].0 in Assign(assignments) && Assign(assignments)[assignments[i].0] == assignments[i].1.value
  {
    var n := |assignments| - 1;
    var init := assignments[..n];
    if i < n {
      assert init[i] == assignments[i];
      assert LastAssigned(init, i) by {
        forall j | i < j < |init| && init[j].1.Some? ensures init[j].0 != init[i].0 {
          assert init[j] == assignments[j];
        }
      }
      AssignLast(init, i);
      assert assignments[n].1.Some? ==> assignments[n].0 != assignments[i].0;
    }
  }

  /** Every key of an assigned dict holds the value of its last assignment. */
  lemma {:induction false} AssignedByLast<V>(assignments: seq<(nat, Option<V>)>, k: nat)
    requires k in Assign(assignments)
    ensures exists i: nat :: LastAssigned(assignments, i) && assignments[i].0 == k
  {
    var n := |assignments| - 1;
    var init := assignments[..n];
    var last := assignments[n];
    if last.1.Some? && last.0 == k {
      assert LastAssigned(assignments, n);
    } else {
      assert k in Assign(init);
      AssignedByLast(init, k);
      var i: nat :| LastAssigned(init, i) && init[i].0 == k;
      assert init[i] == assignments[i];
      assert LastAssigned(assignments, i) by {
        forall j | i < j < |assignments| && assignments[j].1.Some? ensures assignments[j].0 != assignments[i].0 {
          if j < n { assert init[j] == assignments[j]; }
        }
      }
    }
  }

  /** `{num: text for num, text in idea_list}`. */
  function TextAssignments(es: seq<IdeaEntry>): seq<(nat, Option<string>)> {
    seq(|es|, i requires 0 <= i < |es| => (es[i].number, Some(es[i].text)))
  }

  /** The `parsed_ideas` loop: an entry whose text does not split assigns nothing. */
  function ParsedAssignments(es: seq<IdeaEntry>): seq<(nat, Option<ParsedIdea>)> {
    seq(|es|, i requires 0 <= i < |es| => (es[i].number, SplitIdea(es[i].text)))
  }

  /** An idea list with no empty text gives a text dict with no empty value. */
  lemma TextsNonEmpty(es: seq<IdeaEntry>)
    requires forall i :: 0 <= i < |es| ==> es[i].text != ""
    ensures forall n :: n in Assign(TextAssignments(es)) ==> Assign(TextAssignments(es))[n] != ""
  {
    var a := TextAssignments(es);
    forall n | n in Assign(a) ensures Assign(a)[n] != "" {
      AssignedByLast(a, n);
      var i: nat :| LastAssigned(a, i) && a[i].0 == n;
      AssignLast(a, i);
    }
  }

  /** Every number with a parsed idea also has a text. */
  lemma ParsedKeysAreTextKeys(es: seq<IdeaEntry>)
    ensures Assign(ParsedAssignments(es)).Keys <= Assign(TextAssignments(es)).Keys
  {
    forall n | n in Assign(ParsedAssignments(es)) ensures n in Assign(TextAssignments(es)) {
      var i :| 0 <= i < |es| && ParsedAssignments(es)[i].0 == n && ParsedAssignments(es)[i].1.Some?;
      assert TextAssignments(es)[i].0 == n;
    }
  }

  /** Entry i carries its number for the last time in the list. */
  predicate LastWithNumber(es: seq<IdeaEntry>, i: nat) {
    i < |es| && forall j :: i < j < |es| ==> es[j].number != es[i].number
  }

  /** Entry i splits, and no later entry with the same number splits. */
  predicate LastParsed(es: seq<IdeaEntry>, i: nat) {
    i < |es| && SplitIdea(es[i].text).Some? &&
    forall j :: i < j < |es| && SplitIdea(es[j].text).Some? ==> es[j].number != es[i].number
  }

  /** The text dict holds exactly the listed numbers. */
  lemma TextKeys(es: seq<IdeaEntry>)
    ensures forall k :: k in Assign(TextAssignments(es)) <==> exists i :: 0 <= i < |es| && es[i].number == k
  {
    var a := TextAssignments(es);
    forall k | k in Assign(a) ensures exists i :: 0 <= i < |es| && es[i].number == k {
      var i :| 0 <= i < |a| && a[i].0 == k && a[i].1.Some?;
      assert es[i].number == k;
    }
    forall k, i | 0 <= i < |es| && es[i].number == k ensures k in Assign(a) {
      assert a[i].0 == k && a[i].1.Some?;
    }
  }

  /** The text dict holds, for each number, the text of its last entry. */
  lemma TextOfLast(es: seq<IdeaEntry>, i: nat)
    requires LastWithNumber(es, i)
    ensures es[i].number in Assign(TextAssignments(es)) && Assign(TextAssignments(es))[es[i].number] == es[i].text
  {
    var a := TextAssignments(es);
    assert LastAssigned(a, i) by {
      forall j | i < j < |a| && a[j].1.Some? ensures a[j].0 != a[i].0 {
        assert es[j].number != es[i].number;
      }
    }
    AssignLast(a, i);
  }

  /** The parsed dict holds exactly the numbers with an entry whose text splits. */
  lemma ParsedKeys(es: seq<IdeaEntry>)
    ensures forall k :: k in Assign(ParsedAssignments(es)) <==>
              exists i :: 0 <= i < |es| && es[i].number == k && SplitIdea(es[i].text).Some?
  {
    var a := ParsedAssignments(es);
    forall k | k in Assign(a) ensures exists i :: 0 <= i < |es| && es[i].number == k && SplitIdea(es[i].text).Some? {
      var i :| 0 <= i < |a| && a[i].0 == k && a[i].1.Some?;
      assert es[i].number == k && SplitIdea(es[i].text) == a[i].1;
    }
    forall k, i | 0 <= i < |es| && es[i].number == k && SplitIdea(es[i].text).Some? ensures k in Assign(a) {
      assert a[i].0 == k && a[i].1.Some?;
    }
  }

  /** The parsed dict holds, for each number, the split of its last entry that splits. */
  lemma ParsedOfLast(es: seq<IdeaEntry>)
    ensures forall i: nat :: LastParsed(es, i) ==>
              es[i].number in Assign(ParsedAssignments(es)) &&
              Assign(ParsedAssignments(es))[es[i].number] == SplitIdea(es[i].text).value
  {
    var a := ParsedAssignments(es);
    forall i: nat | LastParsed(es, i)
      ensures es[i].number in Assign(a) && Assign(a)[es[i].number] == SplitIdea(es[i].text).value
    {
      assert LastAssigned(a, i) by {
        forall j | i < j < |a| && a[j].1.Some? ensures a[j].0 != a[i].0 {
          assert a[j].1 == SplitIdea(es[j].text);
          assert es[j].number != es[i].number;
        }
      }
      AssignLast(a, i);
    }
  }

  /**
   The parsing half of write_feature in story_generator_03.py: None when no
   numbered idea has any text (the `return None, 0, None` case). Every parsed
   idea can also be looked up as plain text, and every text is non-empty.
   */
  function ParseIdeas(ideas: string): (r: Option<IdeaBatch>)
    ensures r.None? <==> ParseIdeaList(IdeaLines(ideas)) == []
    ensures r.Some? ==> r.value.entries == ParseIdeaList(IdeaLines(ideas))
    ensures r.Some? ==> r.value.parsed.Keys <= r.value.texts.Keys
    ensures r.Some? ==> forall n :: n in r.value.texts ==> r.value.texts[n] != ""
    ensures r.Some? ==> forall k :: k in r.value.texts <==>
              exists i :: 0 <= i < |r.value.entries| && r.value.entries[i].number == k
    ensures r.Some? ==> forall i: nat :: LastWithNumber(r.value.entries, i) ==>
              r.value.texts[r.value.entries[i].number] == r.value.entries[i].text
    ensures r.Some? ==> forall k :: k in r.value.parsed <==>
              exists i :: 0 <= i < |r.value.entries| && r.value.entries[i].number == k && SplitIdea(r.value.entries[i].text).Some?
    ensures r.Some? ==> forall i: nat :: LastParsed(r.value.entries, i) ==>
              r.value.parsed[r.value.entries[i].number] == SplitIdea(r.value.entries[i].text).value
  {
    var es := ParseIdeaList(IdeaLines(ideas));
    TextsNonEmpty(es);
    ParsedKeysAreTextKeys(es);
    TextKeys(es);
    ParsedKeys(es);
    forall i: nat | LastWithNumber(es, i) ensures Assign(TextAssignments(es))[es[i].number] == es[i].text {
      TextOfLast(es, i);
    }
    ParsedOfLast(es);
    if |es| == 0 then None
    else Some(IdeaBatch(es, Assign(TextAssignments(es)), Assign(ParsedAssignments(es))))
  }

  // ---------------------------------------------------------------------------
  // story_generator.py: the idea filter

  /** `line[0].isdigit() and '.' in line[:3]`. */
  predicate IsIdeaLine(line: string) {
    |line| > 0 && IsDigit(line[0]) && exists i :: 0 <= i < |line| && i < 3 && line[i] == '.'
  }

  function FilterIdeaLines(lines: seq<string>): (r: seq<string>)
    ensures |r| <= |lines|
    ensures forall l :: l in r <==> l in lines && IsIdeaLine(l)
  {
    if |lines| == 0 then []
    else
      var rest := FilterIdeaLines(lines[1..]);
      assert forall l :: l in lines <==> l == lines[0] || l in lines[1..];
      if IsIdeaLine(lines[0]) then [lines[0]] + rest else rest
  }

  /** The filter keeps order: filtering a concatenation filters each part. */
  lemma {:induction false} FilterIdeaLinesAppend(a: seq<string>, b: seq<string>)
    ensures FilterIdeaLines(a + b) == FilterIdeaLines(a) + FilterIdeaLines(b)
  {
    if |a| == 0 {
      assert a + b == b;
    } else {
      assert (a + b)[0] == a[0];
      assert (a + b)[1..] == a[1..] + b;
      FilterIdeaLinesAppend(a[1..], b);
    }
  }

  /** The idea list of write_feature in story_generator.py: None when no line qualifies. */
  function IdeaList(ideas: string): (r: Option<seq<string>>)
    ensures r.None? <==> forall l :: l in IdeaLines(ideas) ==> !IsIdeaLine(l)
    ensures r.Some? ==> r.value == FilterIdeaLines(IdeaLines(ideas)) && |r.value| > 0
  {
    var lines := IdeaLines(ideas);
    var kept := FilterIdeaLines(lines);
    assert kept == [] ==> forall l :: l in lines ==> !IsIdeaLine(l);
    assert kept != [] ==> kept[0] in lines && IsIdeaLine(kept[0]);
    if |kept| == 0 then None else Some(kept)
  }
}

=== FILE: index_merge.dfy ===
/**
 The update of the site's index page. Both scripts replace the featured card
 and put the new archive card right after the story-grid marker;
 story_generator_03.py first adds the archive section when the page has no
 grid, and puts the featured card somewhere else when the page has none.
 The cards themselves are parameters: their HTML is fixed text around the
 headline, date, description and file name.
 */
module IndexMerge {
  import opened Text
  import opened Patterns

  /** The archive section story_generator_03.py adds in place of `</section>\s*</main>`, split around its grid marker. */
  const ARCHIVE_HEAD := "</section>\n\n    <section class=\"story-archive\">\n        <h2 class=\"section-title\">Recent Stories</h2>\n        "
  const ARCHIVE_TAIL := "\n        </div>\n    </section>\n\n</main>"
  const ARCHIVE := ARCHIVE_HEAD + GRID + ARCHIVE_TAIL

  /** Whatever the replacement text holds, the result of a substitution that matched holds too. */
  lemma {:induction false} InsertedInside(p: Pattern, doc: string, repl: string, x: string, k: nat)
    requires Matches(p, doc) && OccursAt(repl, x, k)
    ensures Contains(ReplaceAll(p, doc, repl), x)
  {
    var i := Search(p, doc, 0).value;
    ReplaceInserts(p, doc, repl);
    OccursWithin(ReplaceAll(p, doc, repl), repl, i, x, k);
    ContainsAt(ReplaceAll(p, doc, repl), x, i + k);
  }

  /** Adds the archive section when the page has no grid marker. */
  function Bootstrap(doc: string): (r: string)
    ensures Contains(doc, GRID) ==> r == doc
    ensures !Contains(doc, GRID) && Matches(SectionMain, doc) ==> Contains(r, GRID)
    ensures !Matches(SectionMain, doc) ==> r == doc
  {
    if Contains(doc, GRID) then doc
    else if Matches(SectionMain, doc) then
      OccursInMiddle(ARCHIVE_HEAD, GRID, ARCHIVE_TAIL);
      InsertedInside(SectionMain, doc, ARCHIVE, GRID, |ARCHIVE_HEAD|);
      ReplaceAll(SectionMain, doc, ARCHIVE)
    else ReplaceAll(SectionMain, doc, ARCHIVE)
  }

  /**
   A page without the grid whose only `</section>\s*</main>` spans [i, e)
   gets the archive section in that span and keeps everything around it.
   */
  lemma {:induction false} BootstrapAtSectionMain(doc: string, i: nat, e: nat)
    requires !Contains(doc, GRID)
    requires MatchEnd(SectionMain, doc, i) == Some(e)
    requires forall j: nat :: j < i || e <= j ==> MatchEnd(SectionMain, doc, j).None?
    ensures Bootstrap(doc) == doc[..i] + ARCHIVE + doc[e..]
  {
    ReplaceOnlyMatch(SectionMain, doc, i, e, ARCHIVE);
  }

  /** A second bootstrap changes nothing: the archive section is never added twice. */
  lemma {:induction false} BootstrapIdempotent(doc: string)
    ensures Bootstrap(Bootstrap(doc)) == Bootstrap(doc)
  {
  }

  /** What replaces `<section class="featured-story">\s*` when the page has a featured section but no card. */
  function SectionBlock(card: string): string {
    FEATURED_SECTION + "\n" + card + "\n"
  }

  /** What replaces `<main class="container">\s*` when the page has neither. */
  function MainBlock(card: string): string {
    MAIN_OPEN + "\n\n" + (FEATURED_SECTION + "\n" + card + "\n</section>") + "\n\n"
  }

  /** The featured card of story_generator_03.py: over the old card, else into the featured section, else after the main container's opening tag. */
  function PlaceFeatured(doc: string, card: string): (r: string)
    ensures Matches(FeaturedCard, doc) || Matches(FeaturedSection, doc) || Matches(MainContainer, doc) ==> Contains(r, card)
    ensures !Matches(FeaturedCard, doc) && !Matches(FeaturedSection, doc) && !Matches(MainContainer, doc) ==> r == doc
  {
    if Matches(FeaturedCard, doc) then
      OccursInMiddle([], card, []);
      assert [] + card + [] == card;
      InsertedInside(FeaturedCard, doc, card, card, 0);
      ReplaceAll(FeaturedCard, doc, card)
    else if Matches(FeaturedSection, doc) then
      OccursInMiddle(FEATURED_SECTION + "\n", card, "\n");
      InsertedInside(FeaturedSection, doc, SectionBlock(card), card, |FEATURED_SECTION + "\n"|);
      ReplaceAll(FeaturedSection, doc, SectionBlock(card))
    else if Matches(MainContainer, doc) then
      var head := MAIN_OPEN + "\n\n" + FEATURED_SECTION + "\n";
      var tail := "\n</section>" + "\n\n";
      assert MainBlock(card) == head + card + tail;
      OccursInMiddle(head, card, tail);
      InsertedInside(MainContainer, doc, MainBlock(card), card, |head|);
      ReplaceAll(MainContainer, doc, MainBlock(card))
    else ReplaceAll(MainContainer, doc, MainBlock(card))
  }

  /** The page's only featured card span [i, e) is exchanged for the new card; the rest of the page stays. */
  lemma {:induction false} FeaturedSpanReplaced(doc: string, card: string, i: nat, e: nat)
    requires MatchEnd(FeaturedCard, doc, i) == Some(e)
    requires forall j: nat :: j < i || e <= j ==> MatchEnd(FeaturedCard, doc, j).None?
    ensures PlaceFeatured(doc, card) == doc[..i] + card + doc[e..]
  {
    ReplaceOnlyMatch(FeaturedCard, doc, i, e, card);
  }

  /** With no card but one featured section, the card goes right after the section's opening tag, replacing the whitespace there. */
  lemma {:induction false} CardIntoSection(doc: string, card: string, i: nat, e: nat)
    requires !Matches(FeaturedCard, doc)
    requires MatchEnd(FeaturedSection, doc, i) == Some(e)
    requires forall j: nat :: j < i || e <= j ==> MatchEnd(FeaturedSection, doc, j).None?
    ensures PlaceFeatured(doc, card) == doc[..i] + SectionBlock(card) + doc[e..]
  {
    ReplaceOnlyMatch(FeaturedSection, doc, i, e, SectionBlock(card));
  }

  /** With neither, a new featured section holding the card follows the main container's opening tag. */
  lemma {:induction false} CardIntoMain(doc: string, card: string, i: nat, e: nat)
    requires !Matches(FeaturedCard, doc) && !Matches(FeaturedSection, doc)
    requires MatchEnd(MainContainer, doc, i) == Some(e)
    requires forall j: nat :: j < i || e <= j ==> MatchEnd(MainContainer, doc, j).None?
    ensures PlaceFeatured(doc, card) == doc[..i] + MainBlock(card) + doc[e..]
  {
    ReplaceOnlyMatch(MainContainer, doc, i, e, MainBlock(card));
  }

  /** Every grid marker gets a newline and the archive card after it. */
  function GridInsert(doc: string, card: string): (r: string)
    ensures !Contains(doc, GRID) ==> r == doc
  {
    GridSearchIsFind(doc, 0);
    ReplaceAll(Grid, doc, GRID + "\n" + card)
  }

  /** The page is the grid markers with the text between them; the update keeps that text and follows each marker with the card. */
  lemma {:induction false} GridInsertEveryMarker(doc: string, card: string)
    ensures doc == Join(SplitOn(doc, GRID), GRID)
    ensures GridInsert(doc, card) == Join(SplitOn(doc, GRID), GRID + "\n" + card)
  {
    JoinSplit(doc, GRID);
    GridReplaceIsSplitJoin(doc, GRID + "\n" + card);
  }

  lemma {:induction false} GridOnlyAt(doc: string, i: nat)
    requires forall j: nat :: j != i ==> !OccursAt(doc, GRID, j)
    ensures forall j: nat :: j < i || i + |GRID| <= j ==> MatchEnd(Grid, doc, j).None?
  {
    forall j: nat | j < i || i + |GRID| <= j ensures MatchEnd(Grid, doc, j).None? {
      assert !OccursAt(doc, GRID, j);
    }
  }

  /** With one grid marker at i, the card lands right after it and nothing else changes. */
  lemma {:induction false} GridInsertSingle(doc: string, card: string, i: nat)
    requires OccursAt(doc, GRID, i)
    requires forall j: nat :: j != i ==> !OccursAt(doc, GRID, j)
    ensures GridInsert(doc, card) == doc[..i + |GRID|] + "\n" + card + doc[i + |GRID|..]
  {
    var e := i + |GRID|;
    var a, b := doc[..i], doc[e..];
    assert GridInsert(doc, card) == a + (GRID + "\n" + card) + b by {
      GridOnlyAt(doc, i);
      ReplaceOnlyMatch(Grid, doc, i, e, GRID + "\n" + card);
    }
    ConcatAssoc(GRID, "\n", card);
    ConcatAssoc(a, GRID, "\n" + card);
    ConcatAssoc(a + GRID, "\n", card);
    assert doc[..e] == a + GRID;
  }

  /**
   The whole index update of story_generator_03.py: bootstrap the archive,
   place the featured card, then, when the page still has the grid, follow
   every grid marker with the card and keep the text between markers.
   */
  function Merge03(doc: string, featured: string, card: string): (r: string)
    ensures Contains(PlaceFeatured(Bootstrap(doc), featured), GRID) ==> Contains(r, GRID + "\n" + card)
    ensures Contains(PlaceFeatured(Bootstrap(doc), featured), GRID) ==>
              r == Join(SplitOn(PlaceFeatured(Bootstrap(doc), featured), GRID), GRID + "\n" + card)
    ensures !Contains(PlaceFeatured(Bootstrap(doc), featured), GRID) ==> r == PlaceFeatured(Bootstrap(doc), featured)
  {
    var placed := PlaceFeatured(Bootstrap(doc), featured);
    if Contains(placed, GRID) then
      GridInsertEveryMarker(placed, card);
      GridSearchIsFind(placed, 0);
      OccursInMiddle([], GRID + "\n" + card, []);
      assert [] + (GRID + "\n" + card) + [] == GRID + "\n" + card;
      InsertedInside(Grid, placed, GRID + "\n" + card, GRID + "\n" + card, 0);
      GridInsert(placed, card)
    else placed
  }

  /** A page with none of the markers passes through story_generator_03.py's update unchanged. */
  lemma {:induction false} Merge03Untouched(doc: string, featured: string, card: string)
    requires !Contains(doc, GRID) && !Matches(SectionMain, doc)
    requires !Matches(FeaturedCard, doc) && !Matches(FeaturedSection, doc) && !Matches(MainContainer, doc)
    ensures Merge03(doc, featured, card) == doc
  {
  }

  /** The whole index update of story_generator.py: replace every featured card span, then fill every grid marker. */
  function Merge01(doc: string, featured: string, card: string): (r: string)
    ensures !Matches(FeaturedCard, doc) && !Contains(doc, GRID) ==> r == doc
  {
    GridInsert(ReplaceAll(FeaturedCard, doc, featured), card)
  }

  /** After story_generator.py's update every grid marker carries the card, and text between markers is the featured-replaced page's. */
  lemma {:induction false} Merge01EveryMarker(doc: string, featured: string, card: string)
    ensures Merge01(doc, featured, card) == Join(SplitOn(ReplaceAll(FeaturedCard, doc, featured), GRID), GRID + "\n" + card)
  {
    GridInsertEveryMarker(ReplaceAll(FeaturedCard, doc, featured), card);
  }
}

=== FILE: patterns.dfy ===
/**
 The fixed regular expressions the scripts hand to `re.search` and `re.sub`,
 written as matchers over strings, and `re.sub` itself as a left-to-right,
 non-overlapping replace-all.

 Every pattern here is non-empty and looks only forward from where it starts,
 so "the first match at or after position i" is all `re.search` and `re.sub`
 need.
 */
module Patterns {
  import opened Text

  const GRID := "<div class=\"story-grid\">"
  const FEATURED_OPEN := "<div class=\"story-card featured\">"
  const FEATURED_SECTION := "<section class=\"featured-story\">"
  const MAIN_OPEN := "<main class=\"container\">"
  const SECTION_CLOSE := "</section>"
  const MAIN_CLOSE := "</main>"
  const DIV_CLOSE := "</div>"

  datatype Pattern =
    | Grid            // <div class="story-grid">
    | FeaturedSection // <section class="featured-story">\s*
    | MainContainer   // <main class="container">\s*
    | SectionMain     // </section>\s*\s*</main>
    | FeaturedCard    // <div class="story-card featured">[\s\S]*?</div>\s*</div>
    | QuotedLabel     // "[^"]+":\s*

  /** `</div>\s*</div>` at position k: the end of the match, if any. */
  function DivPairEnd(s: string, k: nat): (r: Option<nat>)
    ensures r.Some? ==> k < r.value <= |s|
  {
    if OccursAt(s, DIV_CLOSE, k) then
      var j := SkipSpaces(s, k + |DIV_CLOSE|);
      if OccursAt(s, DIV_CLOSE, j) then Some(j + |DIV_CLOSE|) else None
    else None
  }

  /** The non-greedy `[\s\S]*?</div>\s*</div>` from k: the first k' >= k where the closing pair matches. */
  function FirstDivPairEnd(s: string, k: nat): (r: Option<nat>)
    decreases |s| - k
    ensures r.Some? ==> k < r.value <= |s|
    ensures r.None? ==> forall m :: k <= m ==> DivPairEnd(s, m).None?
  {
    if k >= |s| then None
    else match DivPairEnd(s, k)
      case Some(e) => Some(e)
      case None => FirstDivPairEnd(s, k + 1)
  }

  /** Where a match of `p` that starts at position i ends, if one does. */
  function MatchEnd(p: Pattern, s: string, i: nat): (r: Option<nat>)
    ensures r.Some? ==> i < r.value <= |s|
  {
    match p
    case Grid =>
      if OccursAt(s, GRID, i) then Some(i + |GRID|) else None
    case FeaturedSection =>
      if OccursAt(s, FEATURED_SECTION, i) then Some(SkipSpaces(s, i + |FEATURED_SECTION|)) else None
    case MainContainer =>
      if OccursAt(s, MAIN_OPEN, i) then Some(SkipSpaces(s, i + |MAIN_OPEN|)) else None
    case SectionMain =>
      if OccursAt(s, SECTION_CLOSE, i) then
        var j := SkipSpaces(s, i + |SECTION_CLOSE|);
        if OccursAt(s, MAIN_CLOSE, j) then Some(j + |MAIN_CLOSE|) else None
      else None
    case FeaturedCard =>
      if OccursAt(s, FEATURED_OPEN, i) then FirstDivPairEnd(s, i + |FEATURED_OPEN|) else None
    case QuotedLabel =>
      if i < |s| && s[i] == '"' then
        match FindChar(s, '"', i + 1)
        case Some(q) =>
          if q > i + 1 && q + 1 < |s| && s[q + 1] == ':' then Some(SkipSpaces(s, q + 2)) else None
        case None => None
      else None
  }

  /** `re.search(p, s[start:])`: the leftmost position at or after `start` where `p` matches. */
  function Search(p: Pattern, s: string, start: nat): (r: Option<nat>)
    decreases |s| - start
    ensures r.Some? ==> start <= r.value < |s| && MatchEnd(p, s, r.value).Some?
    ensures r.Some? ==> forall j :: start <= j < r.value ==> MatchEnd(p, s, j).None?
    ensures r.None? ==> forall j :: start <= j ==> MatchEnd(p, s, j).None?
  {
    if start >= |s| then None
    else if MatchEnd(p, s, start).Some? then Some(start)
    else Search(p, s, start + 1)
  }

  predicate Matches(p: Pattern, s: string) {
    Search(p, s, 0).Some?
  }

  /** `re.sub` applied to `s[start..]`: every non-overlapping match, left to right, becomes `repl`. */
  function ReplaceFrom(p: Pattern, s: string, start: nat, repl: string): (r: string)
    requires start <= |s|
    decreases |s| - start
    ensures (forall j :: start <= j ==> MatchEnd(p, s, j).None?) ==> r == s[start..]
  {
    match Search(p, s, start)
    case None => s[start..]
    case Some(i) => s[start..i] + repl + ReplaceFrom(p, s, MatchEnd(p, s, i).value, repl)
  }

  /** `re.sub(p, repl, s)`. */
  function ReplaceAll(p: Pattern, s: string, repl: string): (r: string)
    ensures (forall j :: MatchEnd(p, s, j).None?) ==> r == s
  {
    ReplaceFrom(p, s, 0, repl)
  }

  /** A text where `p` matches at exactly one span [i, e) has exactly that span replaced. */
  lemma ReplaceOnlyMatch(p: Pattern, s: string, i: nat, e: nat, repl: string)
    requires MatchEnd(p, s, i) == Some(e)
    requires forall j: nat :: j < i || e <= j ==> MatchEnd(p, s, j).None?
    ensures ReplaceAll(p, s, repl) == s[..i] + repl + s[e..]
  {
    assert Search(p, s, 0) == Some(i);
    assert ReplaceFrom(p, s, e, repl) == s[e..];
  }

  /** When `p` matches somewhere, the replacement text appears in the result, where the first match began. */
  lemma ReplaceInserts(p: Pattern, s: string, repl: string)
    requires Matches(p, s)
    ensures OccursAt(ReplaceAll(p, s, repl), repl, Search(p, s, 0).value)
  {
    var i := Search(p, s, 0).value;
    var r := ReplaceAll(p, s, repl);
    var tail := ReplaceFrom(p, s, MatchEnd(p, s, i).value, repl);
    assert r == s[..i] + repl + tail;
    assert r[i..i + |repl|] == repl;
  }

  /** The grid marker is a plain literal: a match is exactly an occurrence. */
  lemma GridSearchIsFind(s: string, start: nat)
    ensures Search(Grid, s, start) == FindFrom(s, GRID, start)
  {
    var a := Search(Grid, s, start);
    var b := FindFrom(s, GRID, start);
    if a.Some? {
      assert OccursAt(s, GRID, a.value);
      assert b.Some?;
      assert MatchEnd(Grid, s, b.value).Some?;
      assert !(a.value < b.value) && !(b.value < a.value);
    } else {
      assert forall j: nat :: start <= j ==> !OccursAt(s, GRID, j) by {
        forall j: nat | start <= j ensures !OccursAt(s, GRID, j) {
          assert MatchEnd(Grid, s, j).None?;
        }
      }
    }
  }

  /**
   Substituting for the grid marker is Python's `repl.join(s.split(marker))`:
   every occurrence is replaced and the text between occurrences is untouched.
   */
  lemma {:induction false} GridReplaceFromIsSplitJoin(s: string, start: nat, repl: string)
    requires start <= |s|
    decreases |s| - start
    ensures ReplaceFrom(Grid, s, start, repl) == Join(SplitFrom(s, GRID, start), repl)
  {
    GridSearchIsFind(s, start);
    match FindFrom(s, GRID, start)
    case None =>
    case Some(k) =>
      GridReplaceFromIsSplitJoin(s, k + |GRID|, repl);
  }

  lemma GridReplaceIsSplitJoin(s: string, repl: string)
    ensures ReplaceAll(Grid, s, repl) == Join(SplitOn(s, GRID), repl)
  {
    GridReplaceFromIsSplitJoin(s, 0, repl);
  }
}

=== FILE: prose.dfy ===
/**
 How save_to_website turns the story text into HTML paragraphs. Both scripts
 fold over the stripped lines: a blank line closes the paragraph being built,
 a skipped line is passed over without closing it, and any other line is
 appended to it with one space. story_generator_03.py skips more kinds of
 line, falls back to splitting on blank lines, and places a continue-reading
 anchor; story_generator.py first drops a leading run of choice lines and
 later cuts an excerpt out of the generated HTML.
 */
module Prose {
  import opened Text

  // ---------------------------------------------------------------------------
  // Classifying lines

  /** Which lines a script passes over. */
  datatype SkipRule =
    | Story03 // `#`, `---`, `===`, and (any case) `Based on`, `I will use`, `I have chosen`
    | Story01 // `#` only

  /** Whether a stripped, non-blank line is passed over. */
  predicate Skipped(rule: SkipRule, line: string) {
    match rule
    case Story03 =>
      StartsWith(line, "#") || StartsWith(line, "---") || StartsWith(line, "===")
      || LiteralAtNoCase(line, 0, "based on") || LiteralAtNoCase(line, 0, "i will use")
      || LiteralAtNoCase(line, 0, "i have chosen")
    case Story01 => StartsWith(line, "#")
  }

  /** What the fold sees of one line. */
  datatype Piece = Blank | Skip | Words(text: string)

  function ClassifyLine(rule: SkipRule, line: string): (r: Piece)
    ensures r.Blank? <==> Strip(line) == ""
    ensures r.Skip? <==> Strip(line) != "" && Skipped(rule, Strip(line))
    ensures r.Words? ==> r.text == Strip(line)
  {
    var t := Strip(line);
    if t == "" then Blank else if Skipped(rule, t) then Skip else Words(t)
  }

  function ClassifyLines(rule: SkipRule, lines: seq<string>): (r: seq<Piece>)
    ensures |r| == |lines|
    ensures forall i :: 0 <= i < |lines| ==> r[i] == ClassifyLine(rule, lines[i])
  {
    seq(|lines|, i requires 0 <= i < |lines| => ClassifyLine(rule, lines[i]))
  }

  /** Every piece carrying words carries some. */
  predicate WordsNonEmpty(ps: seq<Piece>) {
    Words("") !in ps
  }

  lemma {:induction false} ClassifiedWordsNonEmpty(rule: SkipRule, lines: seq<string>)
    ensures WordsNonEmpty(ClassifyLines(rule, lines))
  {
    var ps := ClassifyLines(rule, lines);
    forall i | 0 <= i < |ps| ensures ps[i] != Words("") {
      assert ps[i] == ClassifyLine(rule, lines[i]);
    }
  }

  lemma {:induction false} ClassifyLinesAppend(rule: SkipRule, a: seq<string>, b: seq<string>)
    ensures ClassifyLines(rule, a + b) == ClassifyLines(rule, a) + ClassifyLines(rule, b)
  {
    var l := ClassifyLines(rule, a + b);
    var r := ClassifyLines(rule, a) + ClassifyLines(rule, b);
    forall i | 0 <= i < |l| ensures l[i] == r[i] {
      if i < |a| {
        assert (a + b)[i] == a[i];
      } else {
        assert (a + b)[i] == b[i - |a|];
      }
    }
  }

  // ---------------------------------------------------------------------------
  // The fold, as the scripts write it

  /** `paragraph += " " + line`, or `paragraph = line` when nothing has been collected. */
  function Grow(paragraph: string, line: string): string {
    if paragraph == "" then line else paragraph + " " + line
  }

  /** `if paragraph: paragraphs.append(paragraph)`. */
  function Close(paragraph: string, acc: seq<string>): seq<string> {
    if paragraph != "" then acc + [paragraph] else acc
  }

  function Fold(ps: seq<Piece>, paragraph: string, acc: seq<string>): seq<string>
    decreases |ps|
  {
    if |ps| == 0 then Close(paragraph, acc)
    else match ps[0]
      case Blank => Fold(ps[1..], "", Close(paragraph, acc))
      case Skip => Fold(ps[1..], paragraph, acc)
      case Words(t) => Fold(ps[1..], Grow(paragraph, t), acc)
  }

  /** The paragraphs the loop collects from the lines of a story. */
  function SplitParagraphs(rule: SkipRule, lines: seq<string>): (r: seq<string>)
    ensures r == Paragraphs(ClassifyLines(rule, lines))
  {
    var ps := ClassifyLines(rule, lines);
    ClassifiedWordsNonEmpty(rule, lines);
    FoldFresh(ps, []);
    Fold(ps, "", [])
  }

  // ---------------------------------------------------------------------------
  // The paragraphs, described without the fold

  /** The number of leading pieces before the first blank line. */
  function BlockLen(ps: seq<Piece>): (k: nat)
    ensures k <= |ps|
    ensures k < |ps| ==> ps[k].Blank?
    ensures forall j :: 0 <= j < k ==> !ps[j].Blank?
  {
    if |ps| == 0 || ps[0].Blank? then 0 else 1 + BlockLen(ps[1..])
  }

  /** The words of the pieces, in order; skipped pieces contribute nothing. */
  function Texts(ps: seq<Piece>): (r: seq<string>)
    ensures |r| <= |ps|
  {
    if |ps| == 0 then []
    else (if ps[0].Words? then [ps[0].text] else []) + Texts(ps[1..])
  }

  /** The paragraph the first block gives, if its kept lines have any words. */
  function First(ps: seq<Piece>): seq<string> {
    var words := Texts(ps[..BlockLen(ps)]);
    if words != [] then [Join(words, " ")] else []
  }

  /**
   The paragraphs of a story: each maximal run of non-blank lines whose
   kept lines are not all skipped gives one paragraph, the space-join of its
   kept lines, in order.
   */
  function Paragraphs(ps: seq<Piece>): seq<string>
    decreases |ps|
  {
    if |ps| == 0 then []
    else First(ps) + (if BlockLen(ps) < |ps| then Paragraphs(ps[BlockLen(ps) + 1..]) else [])
  }

  /** What follows the first block: the paragraphs after its closing blank line. */
  function After(ps: seq<Piece>): seq<string> {
    if BlockLen(ps) < |ps| then Paragraphs(ps[BlockLen(ps) + 1..]) else []
  }

  /** Growing a paragraph by several lines at once. */
  function GrowAll(paragraph: string, words: seq<string>): string
    decreases |words|
  {
    if |words| == 0 then paragraph else GrowAll(Grow(paragraph, words[0]), words[1..])
  }

  predicate AllNonEmpty(words: seq<string>) {
    "" !in words
  }

  /** Growing by non-empty lines is joining them with single spaces. */
  lemma {:induction false} GrowAllIsJoin(paragraph: string, words: seq<string>)
    requires AllNonEmpty(words)
    decreases |words|
    ensures words == [] ==> GrowAll(paragraph, words) == paragraph
    ensures words != [] && paragraph == "" ==> GrowAll(paragraph, words) == Join(words, " ")
    ensures words != [] && paragraph != "" ==> GrowAll(paragraph, words) == paragraph + " " + Join(words, " ")
  {
    if |words| > 0 {
      GrowAllIsJoin(Grow(paragraph, words[0]), words[1..]);
      if |words| > 1 {
        assert Join(words, " ") == words[0] + " " + Join(words[1..], " ");
      }
    }
  }

  lemma {:induction false} JoinNonEmpty(words: seq<string>)
    requires AllNonEmpty(words) && words != []
    ensures Join(words, " ") != ""
  {
    assert words[0] in words;
    if |words| > 1 {
      assert |Join(words, " ")| >= |words[0]|;
    }
  }

  lemma {:induction false} TextsNonEmpty(ps: seq<Piece>)
    requires WordsNonEmpty(ps)
    ensures AllNonEmpty(Texts(ps))
  {
    if |ps| > 0 {
      assert ps == [ps[0]] + ps[1..];
      TextsNonEmpty(ps[1..]);
    }
  }

  /** Closing a grown paragraph adds the joined block, if it has words. */
  lemma {:induction false} CloseGrown(words: seq<string>, acc: seq<string>)
    requires AllNonEmpty(words)
    ensures Close(GrowAll("", words), acc) == acc + (if words != [] then [Join(words, " ")] else [])
  {
    GrowAllIsJoin("", words);
    if words != [] {
      JoinNonEmpty(words);
    }
  }

  /** A skipped first piece belongs to the block and adds no words. */
  lemma {:induction false} BlockSkip(ps: seq<Piece>)
    requires |ps| > 0 && ps[0].Skip?
    ensures Texts(ps[..BlockLen(ps)]) == Texts(ps[1..][..BlockLen(ps[1..])])
    ensures After(ps) == After(ps[1..])
  {
    var k := BlockLen(ps);
    assert ps[..k][1..] == ps[1..][..k - 1];
    if k < |ps| {
      assert ps[k + 1..] == ps[1..][k..];
    }
  }

  /** A first piece with words belongs to the block and opens its words. */
  lemma {:induction false} BlockWords(ps: seq<Piece>)
    requires |ps| > 0 && ps[0].Words?
    ensures Texts(ps[..BlockLen(ps)]) == [ps[0].text] + Texts(ps[1..][..BlockLen(ps[1..])])
    ensures After(ps) == After(ps[1..])
  {
    var k := BlockLen(ps);
    assert ps[..k][0] == ps[0];
    assert ps[..k][1..] == ps[1..][..k - 1];
    if k < |ps| {
      assert ps[k + 1..] == ps[1..][k..];
    }
  }

  /** A blank first piece is a block of its own with no words. */
  lemma {:induction false} BlockBlank(ps: seq<Piece>)
    requires |ps| > 0 && ps[0].Blank?
    ensures Texts(ps[..BlockLen(ps)]) == []
    ensures After(ps) == Paragraphs(ps[1..])
  {
    assert ps[..0] == [];
  }

  /** The fold is the reference description, whatever paragraph and list it starts from. */
  lemma {:induction false} FoldIsParagraphs(ps: seq<Piece>, paragraph: string, acc: seq<string>)
    requires WordsNonEmpty(ps)
    decreases |ps|
    ensures Fold(ps, paragraph, acc) == Close(GrowAll(paragraph, Texts(ps[..BlockLen(ps)])), acc) + After(ps)
  {
    if |ps| == 0 {
      assert ps[..0] == [];
    } else {
      var rest := ps[1..];
      assert ps == [ps[0]] + rest;
      match ps[0]
      case Blank =>
        FoldIsParagraphs(rest, "", Close(paragraph, acc));
        FirstBlockClosed(rest, Close(paragraph, acc));
        BlockBlank(ps);
      case Skip =>
        FoldIsParagraphs(rest, paragraph, acc);
        BlockSkip(ps);
      case Words(t) =>
        FoldIsParagraphs(rest, Grow(paragraph, t), acc);
        BlockWords(ps);
    }
  }

  /** Started afresh, the fold appends exactly the paragraphs. */
  lemma {:induction false} FoldFresh(ps: seq<Piece>, acc: seq<string>)
    requires WordsNonEmpty(ps)
    ensures Fold(ps, "", acc) == acc + Paragraphs(ps)
  {
    FoldIsParagraphs(ps, "", acc);
    FirstBlockClosed(ps, acc);
  }

  /** Closing the first block of a fresh paragraph and appending the rest gives the paragraphs. */
  lemma {:induction false} FirstBlockClosed(ps: seq<Piece>, acc: seq<string>)
    requires WordsNonEmpty(ps)
    ensures Close(GrowAll("", Texts(ps[..BlockLen(ps)])), acc) + After(ps) == acc + Paragraphs(ps)
  {
    if |ps| == 0 {
      assert ps[..0] == [];
      assert Close(GrowAll("", Texts(ps[..BlockLen(ps)])), acc) == acc;
      assert After(ps) == [] && Paragraphs(ps) == [];
      assert acc + [] == acc;
    } else {
      assert Close(GrowAll("", Texts(ps[..BlockLen(ps)])), acc) == acc + First(ps) by {
        TextsNonEmpty(ps[..BlockLen(ps)]);
        CloseGrown(Texts(ps[..BlockLen(ps)]), acc);
      }
      assert Paragraphs(ps) == First(ps) + After(ps);
      ConcatAssoc(acc, First(ps), After(ps));
    }
  }

  // ---------------------------------------------------------------------------
  // Properties of the paragraphs

  /** Every paragraph has text. */
  lemma {:induction false} ParagraphsNonEmpty(ps: seq<Piece>)
    requires WordsNonEmpty(ps)
    decreases |ps|
    ensures "" !in Paragraphs(ps)
  {
    if |ps| > 0 {
      var k := BlockLen(ps);
      TextsNonEmpty(ps[..k]);
      if Texts(ps[..k]) != [] {
        JoinNonEmpty(Texts(ps[..k]));
      }
      if k < |ps| {
        ParagraphsNonEmpty(ps[k + 1..]);
      }
    }
  }

  /** No piece carries a newline. */
  predicate WordsNewlineFree(ps: seq<Piece>) {
    forall p :: p in ps && p.Words? ==> '\n' !in p.text
  }

  lemma {:induction false} ClassifiedNewlineFree(rule: SkipRule, lines: seq<string>)
    requires forall l :: l in lines ==> '\n' !in l
    ensures WordsNewlineFree(ClassifyLines(rule, lines))
  {
    var ps := ClassifyLines(rule, lines);
    forall i | 0 <= i < |ps| && ps[i].Words? ensures '\n' !in ps[i].text {
      assert lines[i] in lines;
      TrimChars(lines[i], Spaces);
    }
  }

  lemma {:induction false} TextsNewlineFree(ps: seq<Piece>)
    requires WordsNewlineFree(ps)
    ensures forall w :: w in Texts(ps) ==> '\n' !in w
  {
    if |ps| > 0 {
      assert ps == [ps[0]] + ps[1..];
      TextsNewlineFree(ps[1..]);
    }
  }

  /** Joining newline-free words with spaces gives a newline-free text. */
  lemma {:induction false} JoinNewlineFree(words: seq<string>)
    requires words != [] && forall w :: w in words ==> '\n' !in w
    ensures '\n' !in Join(words, " ")
  {
    if '\n' in Join(words, " ") {
      var i :| 0 <= i < |Join(words, " ")| && Join(words, " ")[i] == '\n';
      JoinChar(words, " ", i);
    }
  }

  /** A story of newline-free lines gives newline-free paragraphs. */
  lemma {:induction false} ParagraphsNewlineFree(ps: seq<Piece>)
    requires WordsNewlineFree(ps)
    decreases |ps|
    ensures forall p :: p in Paragraphs(ps) ==> '\n' !in p
  {
    if |ps| > 0 {
      var k := BlockLen(ps);
      TextsNewlineFree(ps[..k]);
      if Texts(ps[..k]) != [] {
        JoinNewlineFree(Texts(ps[..k]));
      }
      if k < |ps| {
        ParagraphsNewlineFree(ps[k + 1..]);
      }
    }
  }

  /** The paragraphs of a story's lines have text and no line breaks. */
  lemma {:induction false} SplitParagraphsShape(rule: SkipRule, lines: seq<string>)
    requires forall l :: l in lines ==> '\n' !in l
    ensures forall p :: p in SplitParagraphs(rule, lines) ==> p != "" && '\n' !in p
  {
    var ps := ClassifyLines(rule, lines);
    ClassifiedNewlineFree(rule, lines);
    ClassifiedWordsNonEmpty(rule, lines);
    ParagraphsNewlineFree(ps);
    ParagraphsNonEmpty(ps);
  }

  /** A skipped line contributes nothing: it reads exactly like an absent line. */
  lemma {:induction false} SkippedLineIgnored(rule: SkipRule, before: seq<string>, line: string, after: seq<string>)
    requires Strip(line) != "" && Skipped(rule, Strip(line))
    ensures SplitParagraphs(rule, before + [line] + after) == SplitParagraphs(rule, before + after)
  {
    var a := ClassifyLines(rule, before);
    var b := ClassifyLines(rule, after);
    ClassifyLinesAppend(rule, before, [line]);
    ClassifyLinesAppend(rule, before + [line], after);
    ClassifyLinesAppend(rule, before, after);
    assert ClassifyLines(rule, [line]) == [Skip];
    FoldSkipAnywhere(a, b, "", []);
  }

  /** A skipped piece anywhere leaves the fold's result unchanged. */
  lemma {:induction false} FoldSkipAnywhere(a: seq<Piece>, b: seq<Piece>, paragraph: string, acc: seq<string>)
    decreases |a|
    ensures Fold(a + [Skip] + b, paragraph, acc) == Fold(a + b, paragraph, acc)
  {
    if |a| == 0 {
      assert (a + [Skip] + b)[1..] == b;
      assert a + b == b;
    } else {
      assert (a + [Skip] + b)[0] == a[0] && (a + b)[0] == a[0];
      assert (a + [Skip] + b)[1..] == a[1..] + [Skip] + b;
      assert (a + b)[1..] == a[1..] + b;
      match a[0]
      case Blank => FoldSkipAnywhere(a[1..], b, "", Close(paragraph, acc));
      case Skip => FoldSkipAnywhere(a[1..], b, paragraph, acc);
      case Words(t) => FoldSkipAnywhere(a[1..], b, Grow(paragraph, t), acc);
    }
  }

  // ---------------------------------------------------------------------------
  // story_generator_03.py

  /**
   The paragraphs of the cleaned story text: the fold's, or, when the fold
   finds none, the stripped non-blank pieces between blank lines.
   */
  function StoryParagraphs(text: string): (r: seq<string>)
    ensures "" !in r
    ensures SplitParagraphs(Story03, Lines(text)) != [] ==> r == SplitParagraphs(Story03, Lines(text))
    ensures SplitParagraphs(Story03, Lines(text)) == [] ==> r == StrippedNonBlank(SplitOn(text, "\n\n"))
  {
    var primary := SplitParagraphs(Story03, Lines(text));
    LinesHaveNoNewline(text);
    SplitParagraphsShape(Story03, Lines(text));
    if primary != [] then primary else StrippedNonBlank(SplitOn(text, "\n\n"))
  }

  const NO_CONTENT := "<p>No content available.</p>"
  const ANCHOR_OPEN := "<p id=\"continue-reading\">"

  /** One paragraph element, with the anchor or without. */
  function Element(paragraph: string, anchored: bool): string {
    (if anchored then ANCHOR_OPEN else "<p>") + paragraph + "</p>\n"
  }

  /** The elements of the paragraphs, in order; `anchor` counts down to the one that carries the anchor. */
  function Elements(ps: seq<string>, anchor: Option<nat>): string
    decreases |ps|
  {
    if |ps| == 0 then ""
    else Element(ps[0], anchor == Some(0)) + Elements(ps[1..], Later(anchor))
  }

  function Later(anchor: Option<nat>): Option<nat> {
    match anchor
    case Some(a) => if a > 0 then Some(a - 1) else None
    case None => None
  }

  /** Where the anchor goes: the second paragraph, or the first when it is alone. */
  function AnchorIndex(count: nat): nat {
    if count >= 2 then 1 else 0
  }

  /**
   The story content of story_generator_03.py: one element per paragraph,
   the anchor on paragraph 2 (or 1 when alone), and a fixed notice when there
   is nothing.
   */
  function Render(ps: seq<string>): (r: string)
    ensures ps == [] ==> r == NO_CONTENT
    ensures ps != [] ==> r == Elements(ps, Some(AnchorIndex(|ps|)))
  {
    if |ps| == 0 then NO_CONTENT
    else if |ps| > 1 then
      assert ps[1..][1..] == ps[2..];
      "<p>" + ps[0] + "</p>\n" + ANCHOR_OPEN + ps[1] + "</p>\n" + Elements(ps[2..], None)
    else
      assert ps[1..] == [];
      ANCHOR_OPEN + ps[0] + "</p>\n"
  }

  /**
   With the anchor on paragraph a, the markup is the plain elements before it,
   its anchored element, and the plain elements after it.
   */
  lemma {:induction false} ElementsAround(ps: seq<string>, a: nat)
    requires a < |ps|
    decreases a
    ensures Elements(ps, Some(a)) == Elements(ps[..a], None) + Element(ps[a], true) + Elements(ps[a + 1..], None)
  {
    if a == 0 {
      assert ps[..0] == [];
    } else {
      var rest := ps[1..];
      assert Elements(ps, Some(a)) == Element(ps[0], false) + Elements(rest, Some(a - 1));
      ElementsAround(rest, a - 1);
      assert Elements(ps[..a], None) == Element(ps[0], false) + Elements(rest[..a - 1], None) by {
        assert ps[..a][1..] == rest[..a - 1];
      }
      assert rest[a - 1] == ps[a] && rest[a..] == ps[a + 1..];
      ConcatAssoc(Element(ps[0], false), Elements(rest[..a - 1], None), Element(ps[a], true) + Elements(ps[a + 1..], None));
      ConcatAssoc(Elements(rest[..a - 1], None), Element(ps[a], true), Elements(ps[a + 1..], None));
      ConcatAssoc(Elements(ps[..a], None), Element(ps[a], true), Elements(ps[a + 1..], None));
    }
  }

  /** Rendering keeps the paragraphs' order and anchors paragraph 2, or paragraph 1 when alone. */
  lemma {:induction false} RenderAnchors(ps: seq<string>)
    requires ps != []
    ensures var a := AnchorIndex(|ps|);
            a < |ps| && Render(ps) == Elements(ps[..a], None) + Element(ps[a], true) + Elements(ps[a + 1..], None)
  {
    ElementsAround(ps, AnchorIndex(|ps|));
  }

  /**
   `short_description`: a text longer than 150 characters is cut to its
   first 147 and marked with "...".
   */
  function Shorten(s: string): (r: string)
    ensures |r| <= 150
    ensures |s| <= 150 ==> r == s
    ensures |s| > 150 ==> |r| == 150 && r[..147] == s[..147] && r[147..] == "..."
  {
    if |s| > 150 then s[..147] + "..." else s
  }

  // ---------------------------------------------------------------------------
  // story_generator.py

  /** A line announcing the choice, which the story body should not start with. */
  predicate IsChoiceLine(line: string) {
    StartsWith(line, "I choose") || StartsWith(line, "I've chosen") || StartsWith(line, "Idea #")
  }

  const CHOICE_SCAN := 6

  /** One past the last of the first six lines that announces the choice, or 0. */
  function ContentStart(lines: seq<string>): (r: nat)
    ensures r <= CHOICE_SCAN && r <= |lines|
    ensures r > 0 ==> IsChoiceLine(lines[r - 1])
    ensures forall j :: r <= j < CHOICE_SCAN && j < |lines| ==> !IsChoiceLine(lines[j])
  {
    LastChoiceBefore(lines, if |lines| < CHOICE_SCAN then |lines| else CHOICE_SCAN)
  }

  function LastChoiceBefore(lines: seq<string>, n: nat): (r: nat)
    requires n <= |lines|
    ensures r <= n
    ensures r > 0 ==> IsChoiceLine(lines[r - 1])
    ensures forall j :: r <= j < n ==> !IsChoiceLine(lines[j])
  {
    if n == 0 then 0 else if IsChoiceLine(lines[n - 1]) then n else LastChoiceBefore(lines, n - 1)
  }

  /** The scan as the script writes it: forwards, stopping after index 5, remembering the latest hit. */
  method FindContentStart(lines: seq<string>) returns (start: nat)
    ensures start == ContentStart(lines)
  {
    start := 0;
    var i := 0;
    while i < |lines|
      invariant 0 <= i <= |lines|
      invariant start <= i && start <= CHOICE_SCAN
      invariant start > 0 ==> IsChoiceLine(lines[start - 1])
      invariant forall j :: start <= j < i && j < CHOICE_SCAN ==> !IsChoiceLine(lines[j])
    {
      if i > 5 {
        break;
      }
      if IsChoiceLine(lines[i]) {
        start := i + 1;
      }
      i := i + 1;
    }
    ContentStartUnique(lines, start);
  }

  /** The characterisation of ContentStart pins down a single value. */
  lemma {:induction false} ContentStartUnique(lines: seq<string>, r: nat)
    requires r <= CHOICE_SCAN && r <= |lines|
    requires r > 0 ==> IsChoiceLine(lines[r - 1])
    requires forall j :: r <= j < CHOICE_SCAN && j < |lines| ==> !IsChoiceLine(lines[j])
    ensures r == ContentStart(lines)
  {
    var c := ContentStart(lines);
  }

  /** The story paragraphs of story_generator.py, from the stripped story. */
  function StoryParagraphs01(story: string): (r: seq<string>)
    ensures forall p :: p in r ==> p != "" && '\n' !in p
    ensures var lines := Lines(Strip(story));
            r == Paragraphs(ClassifyLines(Story01, lines[ContentStart(lines)..]))
  {
    var lines := Lines(Strip(story));
    var body := lines[ContentStart(lines)..];
    LinesHaveNoNewline(Strip(story));
    SplitParagraphsShape(Story01, body);
    SplitParagraphs(Story01, body)
  }

  /** `story_content` of story_generator.py: one plain element per paragraph. */
  function StoryContent01(story: string): string {
    Elements(StoryParagraphs01(story), None)
  }

  /**
   The excerpt: the text between the first `<p>` and the following `</p>`
   of the generated content, shortened to 150 characters; "" when the content
   has no `<p>`.
   */
  function Excerpt(content: string): (r: string)
    ensures |r| <= 150
  {
    var parts := SplitOn(content, "<p>");
    if |parts| > 1 then Shorten(SplitOn(parts[1], "</p>")[0]) else ""
  }

  /** Content without paragraphs has an empty excerpt. */
  lemma {:induction false} ExcerptOfNothing()
    ensures Excerpt(Elements([], None)) == ""
  {
    assert SplitOn("", "<p>") == [""];
  }

  /** Where no position in [a, b) holds the first character of `pat`, the search passes over them. */
  lemma {:induction false} FindFromSkips(s: string, pat: string, a: nat, b: nat)
    requires |pat| > 0 && a <= b
    requires forall j :: a <= j < b && j < |s| ==> s[j] != pat[0]
    decreases b - a
    ensures FindFrom(s, pat, a) == FindFrom(s, pat, b)
  {
    if a < b {
      if a + |pat| <= |s| {
        assert !OccursAt(s, pat, a) by { assert s[a..a + |pat|][0] == s[a]; }
      }
      FindFromSkips(s, pat, a + 1, b);
      if a + |pat| > |s| {
        // Both searches run off the end.
        assert FindFrom(s, pat, a + 1) == None;
      }
    }
  }

  /**
   When the first paragraph has no `<` in it, the excerpt is that paragraph,
   shortened: the splits on `<p>` and `</p>` find its own tags.
   */
  lemma {:induction false} ExcerptOfFirstParagraph(ps: seq<string>)
    requires ps != [] && '<' !in ps[0]
    ensures Excerpt(Elements(ps, None)) == Shorten(ps[0])
  {
    var p := ps[0];
    var content := Elements(ps, None);
    var head := "<p>" + p + "</p>\n";
    assert content == head + Elements(ps[1..], None);
    assert content[..|head|] == head;
    SkipOwnTags(content, p);
    FirstPiece(content, 3 + |p| + 5, p);
  }

  /** After the opening `<p>`, the search for the next `<p>` passes over the paragraph and its closing tag. */
  lemma {:induction false} SkipOwnTags(content: string, p: string)
    requires '<' !in p && StartsWith(content, "<p>" + p + "</p>\n")
    ensures FindFrom(content, "<p>", 3) == FindFrom(content, "<p>", 3 + |p| + 5)
  {
    var c := 3 + |p|;
    SkipParagraphText(content, p);
    assert FindFrom(content, "<p>", c) == FindFrom(content, "<p>", c + 1) by {
      CloseTagAt(content, p);
    }
    SkipCloseTag(content, p);
  }

  lemma {:induction false} HeadChars(content: string, head: string, j: nat)
    requires StartsWith(content, head) && j < |head|
    ensures content[j] == head[j]
  {
    assert content[..|head|][j] == content[j];
  }

  lemma {:induction false} SkipParagraphText(content: string, p: string)
    requires '<' !in p && StartsWith(content, "<p>" + p + "</p>\n")
    ensures FindFrom(content, "<p>", 3) == FindFrom(content, "<p>", 3 + |p|)
  {
    var head := "<p>" + p + "</p>\n";
    forall j | 3 <= j < 3 + |p| && j < |content| ensures content[j] != '<' {
      HeadChars(content, head, j);
      assert head[j] == p[j - 3];
    }
    FindFromSkips(content, "<p>", 3, 3 + |p|);
  }

  lemma {:induction false} CloseTagAt(content: string, p: string)
    requires StartsWith(content, "<p>" + p + "</p>\n")
    ensures !OccursAt(content, "<p>", 3 + |p|)
  {
    var head := "<p>" + p + "</p>\n";
    HeadChars(content, head, 3 + |p| + 1);
    assert head[3 + |p| + 1] == '/';
  }

  lemma {:induction false} SkipCloseTag(content: string, p: string)
    requires StartsWith(content, "<p>" + p + "</p>\n")
    ensures FindFrom(content, "<p>", 3 + |p| + 1) == FindFrom(content, "<p>", 3 + |p| + 5)
  {
    var head := "<p>" + p + "</p>\n";
    var c := 3 + |p|;
    forall j | c + 1 <= j < c + 5 && j < |content| ensures content[j] != '<' {
      HeadChars(content, head, j);
      assert head[j] == "</p>\n"[j - c];
    }
    FindFromSkips(content, "<p>", c + 1, c + 5);
  }

  /** The second piece of the split on `<p>` is `p`, its tag and newline, and maybe more, which the split on `</p>` cuts. */
  lemma {:induction false} FirstPiece(content: string, e: nat, p: string)
    requires e == 3 + |p| + 5 && '<' !in p
    requires StartsWith(content, "<p>" + p + "</p>\n")
    requires FindFrom(content, "<p>", 3) == FindFrom(content, "<p>", e)
    ensures |SplitOn(content, "<p>")| > 1
    ensures SplitOn(SplitOn(content, "<p>")[1], "</p>")[0] == p
  {
    var head := "<p>" + p + "</p>\n";
    assert FindFrom(content, "<p>", 0) == Some(0) by {
      HeadChars(content, head, 0);
      HeadChars(content, head, 1);
      HeadChars(content, head, 2);
    }
    var stop := match FindFrom(content, "<p>", 3) case Some(k) => k case None => |content|;
    assert SplitOn(content, "<p>") == [content[0..0]] + SplitFrom(content, "<p>", 3);
    SplitFromFirst(content, "<p>", 3);
    var piece := content[3..stop];
    assert stop >= e;
    PieceOpens(content, p, stop);
    ClosedAtOwnTag(piece, p);
  }

  /** The first piece of a split runs up to the first separator, or to the end. */
  lemma {:induction false} SplitFromFirst(s: string, sep: string, start: nat)
    requires |sep| > 0 && start <= |s|
    ensures SplitFrom(s, sep, start)[0] == s[start..(match FindFrom(s, sep, start) case Some(k) => k case None => |s|)]
  {
  }

  /** The text after the opening tag starts with the paragraph and its closing tag. */
  lemma {:induction false} PieceOpens(content: string, p: string, stop: nat)
    requires StartsWith(content, "<p>" + p + "</p>\n") && 3 + |p| + 4 <= stop <= |content|
    ensures StartsWith(content[3..stop], p + "</p>")
  {
    var head := "<p>" + p + "</p>\n";
    var piece := content[3..stop];
    forall j | 0 <= j < |p| + 4 ensures piece[j] == (p + "</p>")[j] {
      HeadChars(content, head, 3 + j);
    }
  }

  /** A text opening with `p` and `</p>`, with no `<` in `p`, splits on `</p>` with `p` first. */
  lemma {:induction false} ClosedAtOwnTag(piece: string, p: string)
    requires '<' !in p && StartsWith(piece, p + "</p>")
    ensures SplitOn(piece, "</p>")[0] == p
  {
    var head := p + "</p>";
    forall j | 0 <= j < |p| && j < |piece| ensures piece[j] != '<' {
      HeadChars(piece, head, j);
    }
    FindFromSkips(piece, "</p>", 0, |p|);
    assert OccursAt(piece, "</p>", |p|) by {
      forall j | 0 <= j < 4 ensures piece[|p| + j] == "</p>"[j] {
        HeadChars(piece, head, |p| + j);
      }
    }
    SplitFromFirst(piece, "</p>", 0);
    assert piece[0..|p|] == p by {
      forall j | 0 <= j < |p| ensures piece[j] == p[j] {
        HeadChars(piece, head, j);
      }
    }
  }
}

=== FILE: selection.dfy ===
/**
 How write_feature reads the writer's reply: which idea number the writer
 says it chose, and, in story_generator.py, which headline the reply carries.
 The reply itself comes from the language model and is a parameter here.
 */
module Selection {
  import opened Text
  import Ideas

  // ---------------------------------------------------------------------------
  // The idea number, shared by both scripts

  /** The two searches, tried in this order, both under IGNORECASE. */
  datatype NumberPattern =
    | ChoicePhrase // I(?:'ve)? (?:chose|choose|select|picked|am choosing) idea (?:number )?(\d+)
    | IdeaColon    // Idea (?:number )?(\d+):

  /** `(?:lit)?`: the position after an optional literal. */
  function OptionalAt(s: string, i: nat, lit: string): (k: nat)
    ensures k == i || k == i + |lit|
  {
    if LiteralAtNoCase(s, i, lit) then i + |lit| else i
  }

  /**
   `(?:chose|choose|select|picked|am choosing)`: where the verb ends. No
   alternative is a prefix of another, so at most one can match.
   */
  function VerbEnd(s: string, i: nat): (r: Option<nat>)
    ensures r.Some? ==> i < r.value <= |s|
  {
    if LiteralAtNoCase(s, i, "chose") then Some(i + 5)
    else if LiteralAtNoCase(s, i, "choose") then Some(i + 6)
    else if LiteralAtNoCase(s, i, "select") then Some(i + 6)
    else if LiteralAtNoCase(s, i, "picked") then Some(i + 6)
    else if LiteralAtNoCase(s, i, "am choosing") then Some(i + 11)
    else None
  }

  /** `(\d+)` at c, greedy: the captured span. */
  function DigitsAt(s: string, c: nat): (r: Option<(nat, nat)>)
    ensures r.Some? ==> r.value.0 == c
  {
    if c <= |s| && DigitRunEnd(s, c) > c then Some((c, DigitRunEnd(s, c))) else None
  }

  /** A captured digit span: non-empty, all digits, and not followed by a digit. */
  predicate DigitSpan(s: string, span: (nat, nat)) {
    span.0 < span.1 <= |s| && (forall m :: span.0 <= m < span.1 ==> IsDigit(s[m]))
    && (span.1 == |s| || !IsDigit(s[span.1]))
  }

  /** Where a match of `p` starting at position i puts its capture group, if it matches there. */
  function MatchAt(p: NumberPattern, s: string, i: nat): (r: Option<(nat, nat)>)
    ensures r.Some? ==> i < r.value.0 && DigitSpan(s, r.value)
  {
    match p
    case ChoicePhrase =>
      if !LiteralAtNoCase(s, i, "i") then None
      else
        var a := OptionalAt(s, i + 1, "'ve");
        if !LiteralAtNoCase(s, a, " ") then None
        else
          (match VerbEnd(s, a + 1)
           case None => None
           case Some(b) =>
             if !LiteralAtNoCase(s, b, " idea ") then None
             else DigitsAt(s, OptionalAt(s, b + 6, "number ")))
    case IdeaColon =>
      if !LiteralAtNoCase(s, i, "idea ") then None
      else
        match DigitsAt(s, OptionalAt(s, i + 5, "number "))
        case None => None
        case Some(span) => if span.1 < |s| && s[span.1] == ':' then Some(span) else None
  }

  /** `p` matches at i, and at no position from `start` before it. */
  predicate LeftmostFrom(p: NumberPattern, s: string, start: nat, i: nat) {
    start <= i && MatchAt(p, s, i).Some? && forall j :: start <= j < i ==> MatchAt(p, s, j).None?
  }

  /** `re.search`: the capture of the leftmost match at or after `start`. */
  function SearchNumber(p: NumberPattern, s: string, start: nat): (r: Option<(nat, nat)>)
    decreases |s| - start
    ensures r.Some? ==> exists i :: start <= i < |s| && MatchAt(p, s, i) == r
    ensures r.Some? ==> DigitSpan(s, r.value)
    ensures r.None? ==> forall i :: start <= i ==> MatchAt(p, s, i).None?
  {
    if start >= |s| then None
    else if MatchAt(p, s, start).Some? then MatchAt(p, s, start)
    else SearchNumber(p, s, start + 1)
  }

  /** What the search returns is the leftmost match from `start`. */
  lemma {:induction false} SearchNumberFindsLeftmost(p: NumberPattern, s: string, start: nat)
    decreases |s| - start
    ensures SearchNumber(p, s, start).Some? ==>
              exists i :: LeftmostFrom(p, s, start, i) && MatchAt(p, s, i) == SearchNumber(p, s, start)
  {
    if start < |s| && MatchAt(p, s, start).None? {
      SearchNumberFindsLeftmost(p, s, start + 1);
      if SearchNumber(p, s, start).Some? {
        var i :| LeftmostFrom(p, s, start + 1, i) && MatchAt(p, s, i) == SearchNumber(p, s, start + 1);
        assert LeftmostFrom(p, s, start, i);
      }
    } else if start < |s| {
      assert LeftmostFrom(p, s, start, start);
    }
  }

  /** The match, if any, at each position of `s`. */
  function Matches(p: NumberPattern, s: string): (ms: seq<Option<(nat, nat)>>)
    ensures |ms| == |s| && forall i :: 0 <= i < |s| ==> ms[i] == MatchAt(p, s, i)
  {
    seq(|s|, i requires 0 <= i < |s| => MatchAt(p, s, i))
  }

  /** The first present entry of `ms` at or after k. */
  function FirstSome<T>(ms: seq<Option<T>>, k: nat): Option<T>
    decreases |ms| - k
  {
    if k >= |ms| then None
    else if ms[k].Some? then ms[k]
    else FirstSome(ms, k + 1)
  }

  lemma {:induction false} FirstSomeAt<T>(ms: seq<Option<T>>, k: nat, i: nat)
    requires k <= i < |ms| && ms[i].Some?
    requires forall j :: k <= j < i ==> ms[j].None?
    decreases i - k
    ensures FirstSome(ms, k) == ms[i]
  {
    if k < i {
      FirstSomeAt(ms, k + 1, i);
    }
  }

  /** The search walks the positions in order, as FirstSome walks the matches. */
  lemma {:induction false} SearchIsFirstSome(p: NumberPattern, s: string, start: nat)
    decreases |s| - start
    ensures SearchNumber(p, s, start) == FirstSome(Matches(p, s), start)
  {
    if start < |s| {
      SearchIsFirstSome(p, s, start + 1);
    }
  }

  /** The search returns whichever leftmost match there is. */
  lemma SearchNumberLeftmost(p: NumberPattern, s: string, start: nat, i: nat)
    requires LeftmostFrom(p, s, start, i)
    ensures SearchNumber(p, s, start) == MatchAt(p, s, i)
  {
    var ms := Matches(p, s);
    assert i < |s| by {
      assert DigitSpan(s, MatchAt(p, s, i).value);
    }
    SearchIsFirstSome(p, s, start);
    FirstSomeAt(ms, start, i);
  }

  /**
   The capture both scripts use: that of the leftmost choice phrase if there
   is one; only when there is none, that of the leftmost `Idea N:`.
   */
  function FoundSpan(response: string): (r: Option<(nat, nat)>)
    ensures r.Some? ==> DigitSpan(response, r.value)
    ensures r.None? <==> forall p: NumberPattern, i :: MatchAt(p, response, i).None?
    ensures forall i :: LeftmostFrom(ChoicePhrase, response, 0, i) ==> r == MatchAt(ChoicePhrase, response, i)
    ensures (forall i :: MatchAt(ChoicePhrase, response, i).None?) ==>
              forall i :: LeftmostFrom(IdeaColon, response, 0, i) ==> r == MatchAt(IdeaColon, response, i)
  {
    match SearchNumber(ChoicePhrase, response, 0)
    case Some(span) =>
      assert forall i :: LeftmostFrom(ChoicePhrase, response, 0, i) ==> Some(span) == MatchAt(ChoicePhrase, response, i) by {
        forall i | LeftmostFrom(ChoicePhrase, response, 0, i) ensures Some(span) == MatchAt(ChoicePhrase, response, i) {
          SearchNumberLeftmost(ChoicePhrase, response, 0, i);
        }
      }
      Some(span)
    case None =>
      var r := SearchNumber(IdeaColon, response, 0);
      assert forall i :: LeftmostFrom(IdeaColon, response, 0, i) ==> r == MatchAt(IdeaColon, response, i) by {
        forall i | LeftmostFrom(IdeaColon, response, 0, i) ensures r == MatchAt(IdeaColon, response, i) {
          SearchNumberLeftmost(IdeaColon, response, 0, i);
        }
      }
      assert r.None? ==> forall p: NumberPattern, i :: MatchAt(p, response, i).None? by {
        if r.None? {
          forall p: NumberPattern, i | true ensures MatchAt(p, response, i).None? {
            assert p == ChoicePhrase || p == IdeaColon;
          }
        }
      }
      r
  }

  /** The text a match of `p` at i captures. */
  function Capture(p: NumberPattern, s: string, i: nat): string
    requires MatchAt(p, s, i).Some?
  {
    s[MatchAt(p, s, i).value.0..MatchAt(p, s, i).value.1]
  }

  /**
   The digits both scripts capture: those of the leftmost choice phrase, else
   those of the leftmost `Idea N:`, else nothing.
   */
  function ChosenDigits(response: string): (r: Option<string>)
    ensures r.Some? ==> |r.value| > 0 && forall m :: 0 <= m < |r.value| ==> IsDigit(r.value[m])
    ensures r.None? <==> forall p: NumberPattern, i :: MatchAt(p, response, i).None?
    ensures forall i :: LeftmostFrom(ChoicePhrase, response, 0, i) ==> r == Some(Capture(ChoicePhrase, response, i))
    ensures (forall i :: MatchAt(ChoicePhrase, response, i).None?) ==>
              forall i :: LeftmostFrom(IdeaColon, response, 0, i) ==> r == Some(Capture(IdeaColon, response, i))
  {
    match FoundSpan(response)
    case None => None
    case Some(span) =>
      SpanDigits(response, span);
      assert forall p: NumberPattern, i :: MatchAt(p, response, i) == Some(span) ==>
               Capture(p, response, i) == response[span.0..span.1];
      Some(response[span.0..span.1])
  }

  lemma SpanDigits(s: string, span: (nat, nat))
    requires DigitSpan(s, span)
    ensures forall m :: 0 <= m < span.1 - span.0 ==> IsDigit(s[span.0..span.1][m])
  {
    forall m | 0 <= m < span.1 - span.0 ensures IsDigit(s[span.0..span.1][m]) {
      assert s[span.0..span.1][m] == s[span.0 + m];
    }
  }

  /** The idea number of story_generator_03.py: the captured digits as an int, 1 when nothing matched. */
  function IdeaNumber(response: string): (n: nat)
    ensures ChosenDigits(response).None? ==> n == 1
    ensures ChosenDigits(response).Some? ==> NatToString(n) == StripLeadingZeros(ChosenDigits(response).value)
  {
    match ChosenDigits(response)
    case None => 1
    case Some(d) =>
      DigitsValueStrip(d);
      DigitsValue(d)
  }

  /** The idea number of story_generator.py: the captured digits as text, "?" when nothing matched. */
  function IdeaNumberText(response: string): (r: string)
    ensures r == "?" <==> ChosenDigits(response).None?
    ensures r != "?" ==> Some(r) == ChosenDigits(response)
  {
    match ChosenDigits(response)
    case None => "?"
    case Some(d) =>
      assert d != "?" by { assert IsDigit(d[0]); }
      d
  }

  /** Leading zeros removed, but at least one digit kept. */
  function StripLeadingZeros(d: string): (r: string)
    ensures |r| > 0 || |d| == 0
  {
    if |d| > 1 && d[0] == '0' then StripLeadingZeros(d[1..]) else d
  }

  /** `str(int(d))` is `d` without its leading zeros. */
  lemma {:induction false} DigitsValueStrip(d: string)
    requires |d| > 0 && forall m :: 0 <= m < |d| ==> IsDigit(d[m])
    ensures NatToString(DigitsValue(d)) == StripLeadingZeros(d)
  {
    if |d| > 1 && d[0] == '0' {
      DigitsValueDropZero(d);
      DigitsValueStrip(d[1..]);
    } else {
      CanonicalDigits(d);
    }
  }

  /** A leading zero does not change the value. */
  lemma {:induction false} DigitsValueDropZero(d: string)
    requires |d| > 1 && d[0] == '0' && forall m :: 0 <= m < |d| ==> IsDigit(d[m])
    decreases |d|
    ensures DigitsValue(d) == DigitsValue(d[1..])
  {
    var init := d[..|d| - 1];
    assert d[1..][..|d[1..]| - 1] == init[1..];
    if |init| > 1 {
      DigitsValueDropZero(init);
    } else {
      assert init == "0";
    }
  }

  /** A digit string without a leading zero (or the single digit "0") is the spelling of its value. */
  lemma {:induction false} CanonicalDigits(d: string)
    requires |d| > 0 && forall m :: 0 <= m < |d| ==> IsDigit(d[m])
    requires |d| == 1 || d[0] != '0'
    decreases |d|
    ensures NatToString(DigitsValue(d)) == d
  {
    if |d| > 1 {
      var init := d[..|d| - 1];
      CanonicalDigits(init);
      DigitsValuePositive(init);
      var v := DigitsValue(d);
      assert v / 10 == DigitsValue(init);
      assert v % 10 == DigitValue(d[|d| - 1]);
      assert DigitChar(v % 10) == d[|d| - 1];
      assert d == init + [d[|d| - 1]];
    } else {
      assert DigitChar(DigitValue(d[0])) == d[0];
    }
  }

  lemma {:induction false} DigitsValuePositive(d: string)
    requires |d| > 0 && forall m :: 0 <= m < |d| ==> IsDigit(d[m])
    requires d[0] != '0'
    decreases |d|
    ensures DigitsValue(d) > 0
  {
    if |d| > 1 {
      DigitsValuePositive(d[..|d| - 1]);
    }
  }

  /** The opening of the reply the writer prompt asks for. */
  const CHOICE_REPLY := "I choose idea "

  /** Case-insensitive literals inside a known prefix of `s` read the same in the prefix. */
  lemma LiteralInPrefix(s: string, p: string, i: nat, lit: string)
    requires StartsWith(s, p) && i + |lit| <= |p|
    ensures LiteralAtNoCase(s, i, lit) <==> LiteralAtNoCase(p, i, lit)
  {
    assert forall m :: 0 <= m < |p| ==> s[m] == p[m] by {
      forall m | 0 <= m < |p| ensures s[m] == p[m] {
        assert s[..|p|][m] == s[m];
      }
    }
    assert s[i..i + |lit|] == p[i..i + |lit|];
  }

  /** The literals the choice phrase tests, read off `I choose idea `. */
  lemma ChoiceReplyLiterals()
    ensures LiteralAtNoCase(CHOICE_REPLY, 0, "i") && LiteralAtNoCase(CHOICE_REPLY, 1, " ")
    ensures !LiteralAtNoCase(CHOICE_REPLY, 1, "'ve") && !LiteralAtNoCase(CHOICE_REPLY, 2, "chose")
    ensures LiteralAtNoCase(CHOICE_REPLY, 2, "choose") && LiteralAtNoCase(CHOICE_REPLY, 8, " idea ")
  {
    var p := CHOICE_REPLY;
    assert Lower(p[0..1]) == "i";
    assert Lower(p[1..2]) == " ";
    assert Lower(p[1..4])[0] == ' ';
    assert Lower(p[2..7])[3] == 'o';
    assert Lower(p[2..8]) == "choose";
    assert Lower(p[8..14]) == " idea ";
  }

  /** In a text opening with `I choose idea `, the verb is `choose`. */
  lemma ChoiceReplyVerb(s: string)
    requires StartsWith(s, CHOICE_REPLY)
    ensures LiteralAtNoCase(s, 0, "i") && OptionalAt(s, 1, "'ve") == 1 && LiteralAtNoCase(s, 1, " ")
    ensures VerbEnd(s, 2) == Some(8) && LiteralAtNoCase(s, 8, " idea ")
  {
    ChoiceReplyLiterals();
    LiteralInPrefix(s, CHOICE_REPLY, 0, "i");
    LiteralInPrefix(s, CHOICE_REPLY, 1, " ");
    LiteralInPrefix(s, CHOICE_REPLY, 1, "'ve");
    LiteralInPrefix(s, CHOICE_REPLY, 2, "chose");
    LiteralInPrefix(s, CHOICE_REPLY, 2, "choose");
    LiteralInPrefix(s, CHOICE_REPLY, 8, " idea ");
  }

  /** After `I choose idea ` and a digit, the choice phrase captures the digit run there. */
  lemma ChoiceReplyMatches(s: string)
    requires StartsWith(s, CHOICE_REPLY) && |s| > 14 && IsDigit(s[14])
    ensures MatchAt(ChoicePhrase, s, 0) == DigitsAt(s, 14)
  {
    ChoiceReplyVerb(s);
    assert OptionalAt(s, 14, "number ") == 14 by {
      if 21 <= |s| { assert Lower(s[14..21])[0] == s[14]; }
    }
  }

  /** A digit string followed by a non-digit is captured whole. */
  lemma DigitsAtSpelled(s: string, k: nat, digits: string)
    requires |digits| > 0 && forall m :: 0 <= m < |digits| ==> IsDigit(digits[m])
    requires k + |digits| <= |s| && s[k..k + |digits|] == digits
    requires k + |digits| == |s| || !IsDigit(s[k + |digits|])
    ensures DigitsAt(s, k) == Some((k, k + |digits|))
  {
    assert forall m :: k <= m < k + |digits| ==> IsDigit(s[m]) by {
      forall m | k <= m < k + |digits| ensures IsDigit(s[m]) {
        assert s[m] == s[k..k + |digits|][m - k];
      }
    }
    DigitRunEndAt(s, k, k + |digits|);
  }

  /** The reply the prompt asks for, `I choose idea N` at the very start, yields N. */
  lemma ChoicePhraseRoundTrip(n: nat, rest: string)
    requires rest == [] || !IsDigit(rest[0])
    ensures IdeaNumber(CHOICE_REPLY + NatToString(n) + rest) == n
  {
    var digits := NatToString(n);
    var s := CHOICE_REPLY + digits + rest;
    assert s[..14] == CHOICE_REPLY;
    assert s[14..14 + |digits|] == digits;
    assert 14 + |digits| < |s| ==> s[14 + |digits|] == rest[0];
    DigitsAtSpelled(s, 14, digits);
    ChoiceReplyMatches(s);
    DigitsValueOfNatToString(n);
  }

  /** At its start the phrase stops at "chose": "chosen" is not followed by " idea ". */
  lemma ChosenIsNotAVerbAtStart()
    ensures MatchAt(ChoicePhrase, "I've chosen idea 3", 0).None?
  {
    var s := "I've chosen idea 3";
    assert LiteralAtNoCase(s, 0, "i") by { assert Lower(s[0..1]) == "i"; }
    assert LiteralAtNoCase(s, 1, "'ve") by { assert Lower(s[1..4]) == "'ve"; }
    assert LiteralAtNoCase(s, 5, "chose") by { assert Lower(s[5..10]) == "chose"; }
    assert !LiteralAtNoCase(s, 10, " idea ") by { assert Lower(s[10..16])[0] == 'n'; }
  }

  /** Past its start the only other 'i' begins "idea", which is not followed by a space. */
  lemma ChosenIsNotAVerbElsewhere(i: nat)
    requires i != 0
    ensures MatchAt(ChoicePhrase, "I've chosen idea 3", i).None?
  {
    var s := "I've chosen idea 3";
    if i == 12 {
      assert !LiteralAtNoCase(s, 13, "'ve") by { assert Lower(s[13..16])[0] == 'd'; }
      assert !LiteralAtNoCase(s, 13, " ") by { assert Lower(s[13..14])[0] == 'd'; }
    } else if i < |s| {
      assert !LiteralAtNoCase(s, i, "i") by { assert Lower(s[i..i + 1])[0] == LowerChar(s[i]); }
    }
  }

  /**
   "I've chosen idea 3" is not a choice phrase at any position: after "I've "
   only the verbs listed are accepted, and "chose" must be followed by " idea ".
   */
  lemma ChosenIsNotAVerb()
    ensures forall i :: MatchAt(ChoicePhrase, "I've chosen idea 3", i).None?
    ensures SearchNumber(ChoicePhrase, "I've chosen idea 3", 0).None?
  {
    ChosenIsNotAVerbAtStart();
    forall i: nat | i != 0 ensures MatchAt(ChoicePhrase, "I've chosen idea 3", i).None? {
      ChosenIsNotAVerbElsewhere(i);
    }
  }

  // ---------------------------------------------------------------------------
  // story_generator_03.py: the chosen idea

  datatype Choice = Choice(ideaNumber: nat, headline: string, description: string, chosenIdea: string)

  function FallbackHeadline(number: string): string {
    "Vanity Fair Feature: Idea " + number
  }

  /**
   The metadata write_feature returns: the parsed title and description of
   the chosen idea when it parsed, otherwise a numbered stand-in headline and
   the idea's raw text; the chosen idea's text is "" for an unknown number.
   */
  function Choose(response: string, batch: Ideas.IdeaBatch): Choice {
    var n := IdeaNumber(response);
    var text := if n in batch.texts then batch.texts[n] else "";
    if n in batch.parsed then Choice(n, batch.parsed[n].title, batch.parsed[n].description, text)
    else Choice(n, FallbackHeadline(NatToString(n)), text, text)
  }

  /**
   write_feature of story_generator_03.py after the model has replied: None
   when the idea list has no entries. Otherwise, for the number the reply
   names, the chosen idea is the text of the last entry with that number ("" if
   none has it); title and description come from the last entry with that
   number whose text splits, and when none splits the headline is the numbered
   stand-in and the description the chosen idea's text.
   */
  function WriteFeature(ideas: string, response: string): (r: Option<Choice>)
    ensures r.None? <==> Ideas.ParseIdeaList(Ideas.IdeaLines(ideas)) == []
    ensures r.Some? ==> r.value.ideaNumber == IdeaNumber(response)
    ensures var es := Ideas.ParseIdeaList(Ideas.IdeaLines(ideas));
            r.Some? ==> forall i: nat :: Ideas.LastWithNumber(es, i) && es[i].number == IdeaNumber(response) ==>
                          r.value.chosenIdea == es[i].text
    ensures var es := Ideas.ParseIdeaList(Ideas.IdeaLines(ideas));
            r.Some? && (forall i :: 0 <= i < |es| ==> es[i].number != IdeaNumber(response)) ==>
              r.value.chosenIdea == ""
    ensures var es := Ideas.ParseIdeaList(Ideas.IdeaLines(ideas));
            r.Some? ==> forall i: nat :: Ideas.LastParsed(es, i) && es[i].number == IdeaNumber(response) ==>
                          r.value.headline == Ideas.SplitIdea(es[i].text).value.title &&
                          r.value.description == Ideas.SplitIdea(es[i].text).value.description
    ensures var es := Ideas.ParseIdeaList(Ideas.IdeaLines(ideas));
            r.Some? && (forall i :: 0 <= i < |es| && es[i].number == IdeaNumber(response) ==> Ideas.SplitIdea(es[i].text).None?) ==>
              r.value.headline == FallbackHeadline(NatToString(IdeaNumber(response))) &&
              r.value.description == r.value.chosenIdea
  {
    match Ideas.ParseIdeas(ideas)
    case None => None
    case Some(batch) => Some(Choose(response, batch))
  }

  // ---------------------------------------------------------------------------
  // story_generator.py: headline and chosen idea

  /** The end of the run of '#' starting at j. */
  function HashRunEnd(line: string, j: nat): (k: nat)
    requires j <= |line|
    decreases |line| - j
    ensures j <= k <= |line|
    ensures forall m :: j <= m < k ==> line[m] == '#'
    ensures k == |line| || line[k] != '#'
  {
    if j < |line| && line[j] == '#' then HashRunEnd(line, j + 1) else j
  }

  /** `^#+ (.+)$` on one line: what follows the leading hashes and one space, when that is not empty. */
  function HeadingText(line: string): (r: Option<string>)
    ensures r.Some? ==> 0 < |r.value| < |line| && r.value == line[|line| - |r.value|..]
  {
    var k := HashRunEnd(line, 0);
    if 0 < k && k + 1 < |line| && line[k] == ' ' then Some(line[k + 1..]) else None
  }

  /** The first line that is a Markdown heading (the MULTILINE search finds the earliest line). */
  function FirstHeadingFrom(lines: seq<string>, k: nat): (r: Option<nat>)
    decreases |lines| - k
    ensures r.Some? ==> k <= r.value < |lines| && HeadingText(lines[r.value]).Some?
    ensures r.Some? ==> forall m :: k <= m < r.value ==> HeadingText(lines[m]).None?
    ensures r.None? ==> forall m :: k <= m < |lines| ==> HeadingText(lines[m]).None?
  {
    if k >= |lines| then None
    else if HeadingText(lines[k]).Some? then Some(k)
    else FirstHeadingFrom(lines, k + 1)
  }

  /** The text of the earliest Markdown heading line; the MULTILINE search finds no other. */
  function FirstHeading(lines: seq<string>): (r: Option<string>)
    ensures r.None? <==> forall i :: 0 <= i < |lines| ==> HeadingText(lines[i]).None?
    ensures r.Some? ==> exists i :: 0 <= i < |lines| && HeadingText(lines[i]) == r &&
                          forall m :: 0 <= m < i ==> HeadingText(lines[m]).None?
  {
    match FirstHeadingFrom(lines, 0)
    case None => None
    case Some(i) => HeadingText(lines[i])
  }

  function UpperCount(s: string): (n: nat)
    ensures n <= |s|
  {
    if |s| == 0 then 0 else (if IsUpper(s[0]) then 1 else 0) + UpperCount(s[1..])
  }

  predicate EndsWithTerminal(s: string) {
    |s| > 0 && (s[|s| - 1] == '.' || s[|s| - 1] == '?' || s[|s| - 1] == '!')
  }

  /**
   A line that might be a headline: longer than 20 characters, not blank, not
   ending in `.`, `?` or `!` once stripped, and more than 30% capitals.
   */
  predicate LooksLikeHeadline(line: string) {
    |line| > 20 && Strip(line) != "" && !EndsWithTerminal(Strip(line)) && 10 * UpperCount(line) > 3 * |line|
  }

  function FirstLookingFrom(lines: seq<string>, k: nat): (r: Option<nat>)
    decreases |lines| - k
    ensures r.Some? ==> k <= r.value < |lines| && LooksLikeHeadline(lines[r.value])
    ensures r.Some? ==> forall m :: k <= m < r.value ==> !LooksLikeHeadline(lines[m])
    ensures r.None? ==> forall m :: k <= m < |lines| ==> !LooksLikeHeadline(lines[m])
  {
    if k >= |lines| then None
    else if LooksLikeHeadline(lines[k]) then Some(k)
    else FirstLookingFrom(lines, k + 1)
  }

  /** The for/else over the first lines: the earliest one that looks like a headline. */
  function FirstLooking(lines: seq<string>): (r: Option<string>)
    ensures r.None? <==> forall i :: 0 <= i < |lines| ==> !LooksLikeHeadline(lines[i])
    ensures r.Some? ==> exists i :: 0 <= i < |lines| && lines[i] == r.value && LooksLikeHeadline(r.value) &&
                          forall m :: 0 <= m < i ==> !LooksLikeHeadline(lines[m])
  {
    match FirstLookingFrom(lines, 0)
    case None => None
    case Some(i) => Some(lines[i])
  }

  const HEADLINE_SCAN := 10

  /**
   The headline of story_generator.py: the first Markdown heading, else the
   first capitalised line among the first ten, stripped, else a stand-in
   naming the idea number. It is never empty.
   */
  function Headline(response: string, ideaNumber: string): (r: string)
    ensures |r| > 0
    ensures FirstHeading(Lines(response)).Some? ==> Some(r) == FirstHeading(Lines(response))
    ensures FirstHeading(Lines(response)).None? && FirstLooking(Truncate(Lines(response), HEADLINE_SCAN)).Some? ==>
              r == Strip(FirstLooking(Truncate(Lines(response), HEADLINE_SCAN)).value)
    ensures FirstHeading(Lines(response)).None? && FirstLooking(Truncate(Lines(response), HEADLINE_SCAN)).None? ==>
              r == FallbackHeadline(ideaNumber)
  {
    var lines := Lines(response);
    match FirstHeading(lines)
    case Some(h) => h
    case None =>
      match FirstLooking(Truncate(lines, HEADLINE_SCAN))
      case Some(line) => Strip(line)
      case None => FallbackHeadline(ideaNumber)
  }

  /** A reply whose first line is `# Title` is headed `Title`. */
  lemma HeadingRoundTrip(title: string, rest: string)
    requires |title| > 0 && '\n' !in title
    ensures Headline("# " + title + "\n" + rest, "?") == title
  {
    var s := "# " + title + "\n" + rest;
    var line := "# " + title;
    assert s == line + "\n" + rest;
    LinesOfPrefixed(line, rest);
    assert HashRunEnd(line, 1) == 1;
    assert line[2..] == title;
    assert HeadingText(line) == Some(title);
  }

  /** The first line of `line + "\n" + rest` is `line`. */
  lemma LinesOfPrefixed(line: string, rest: string)
    requires '\n' !in line
    ensures |Lines(line + "\n" + rest)| > 0 && Lines(line + "\n" + rest)[0] == line
  {
    var s := line + "\n" + rest;
    assert forall j :: 0 <= j < |line| ==> !OccursAt(s, "\n", j) by {
      forall j | 0 <= j < |line| ensures !OccursAt(s, "\n", j) {
        assert s[j..j + 1] == [line[j]];
      }
    }
    assert OccursAt(s, "\n", |line|) by { assert s[|line|..|line| + 1] == "\n"; }
    assert FindFrom(s, "\n", 0) == Some(|line|);
    assert s[0..|line|] == line;
  }

  function FirstWithPrefixFrom(ideas: seq<string>, prefix: string, k: nat): (r: Option<nat>)
    decreases |ideas| - k
    ensures r.Some? ==> k <= r.value < |ideas| && StartsWith(ideas[r.value], prefix)
    ensures r.Some? ==> forall m :: k <= m < r.value ==> !StartsWith(ideas[m], prefix)
    ensures r.None? ==> forall m :: k <= m < |ideas| ==> !StartsWith(ideas[m], prefix)
  {
    if k >= |ideas| then None
    else if StartsWith(ideas[k], prefix) then Some(k)
    else FirstWithPrefixFrom(ideas, prefix, k + 1)
  }

  /** `next((idea for idea in idea_list if idea.startswith(f"{n}.")), None)`. */
  function FirstWithPrefix(ideas: seq<string>, prefix: string): (r: Option<string>)
    ensures r.None? <==> forall i :: 0 <= i < |ideas| ==> !StartsWith(ideas[i], prefix)
    ensures r.Some? ==> StartsWith(r.value, prefix)
    ensures r.Some? ==> exists i :: 0 <= i < |ideas| && ideas[i] == r.value && forall m :: 0 <= m < i ==> !StartsWith(ideas[m], prefix)
  {
    match FirstWithPrefixFrom(ideas, prefix, 0)
    case None => None
    case Some(i) => Some(ideas[i])
  }

  datatype Choice01 = Choice01(ideaNumber: string, headline: string, chosenIdea: Option<string>)

  /**
   write_feature of story_generator.py after the model has replied: None when
   no line of the list looks numbered, else the reply's number, headline and
   the first listed idea starting with that number and a full stop.
   */
  function WriteFeature01(ideas: string, response: string): (r: Option<Choice01>)
    ensures r.None? <==> Ideas.IdeaList(ideas).None?
    ensures r.Some? ==> r.value.ideaNumber == IdeaNumberText(response) && |r.value.headline| > 0
    ensures r.Some? ==> r.value.chosenIdea == FirstWithPrefix(Ideas.IdeaList(ideas).value, r.value.ideaNumber + ".")
    ensures r.Some? && FirstHeading(Lines(response)).Some? ==> Some(r.value.headline) == FirstHeading(Lines(response))
    ensures r.Some? && FirstHeading(Lines(response)).None? && FirstLooking(Truncate(Lines(response), HEADLINE_SCAN)).Some? ==>
              r.value.headline == Strip(FirstLooking(Truncate(Lines(response), HEADLINE_SCAN)).value)
    ensures r.Some? && FirstHeading(Lines(response)).None? && FirstLooking(Truncate(Lines(response), HEADLINE_SCAN)).None? ==>
              r.value.headline == FallbackHeadline(IdeaNumberText(response))
  {
    match Ideas.IdeaList(ideas)
    case None => None
    case Some(list) =>
      var n := IdeaNumberText(response);
      Some(Choice01(n, Headline(response, n), FirstWithPrefix(list, n + ".")))
  }

  /** No listed idea starts with "?.": each starts with a digit. */
  lemma NoIdeaUnderQuestionMark(list: seq<string>)
    requires forall l :: l in list ==> Ideas.IsIdeaLine(l)
    ensures FirstWithPrefix(list, "?.").None?
  {
    forall i | 0 <= i < |list| ensures !StartsWith(list[i], "?.") {
      assert list[i] in list;
    }
  }

  /** When no number was found, no idea is chosen. */
  lemma UnknownNumberChoosesNothing(ideas: string, response: string)
    requires Ideas.IdeaList(ideas).Some? && ChosenDigits(response).None?
    ensures WriteFeature01(ideas, response).value.chosenIdea.None?
  {
    var list := Ideas.IdeaList(ideas).value;
    assert IdeaNumberText(response) == "?";
    assert forall l :: l in list ==> Ideas.IsIdeaLine(l) by {
      assert list == Ideas.FilterIdeaLines(Ideas.IdeaLines(ideas));
    }
    NoIdeaUnderQuestionMark(list);
    assert WriteFeature01(ideas, response).value.chosenIdea == FirstWithPrefix(list, "?.");
  }
}

=== FILE: slug.dfy ===
/**
 The headline-to-filename cleanup both scripts apply:
   re.sub(r'[^\w\s-]', '', headline.lower())   drop punctuation
   re.sub(r'[\s-]+', '-', ...)                   collapse separator runs to one hyphen
 followed, in story_generator_03.py, by `[:40].strip('-')` and, in
 story_generator.py, by `[:50]` alone.
 */
module Slug {
  import opened Text

  const SLUG_LIMIT := 40
  const BASE_LIMIT_01 := 50

  predicate IsSeparator(c: char) { Dropped(Separators, c) }

  /** Characters the class `[^\w\s-]` does not remove. */
  predicate IsKept(c: char) { IsWordChar(c) || IsSpace(c) || c == '-' }

  /** `re.sub(r'[^\w\s-]', '', s)`. */
  function DropPunctuation(s: string): (r: string)
    ensures |r| <= |s|
    ensures forall i :: 0 <= i < |r| ==> IsKept(r[i]) && r[i] in s
    ensures (forall i :: 0 <= i < |s| ==> IsKept(s[i])) ==> r == s
  {
    if |s| == 0 then ""
    else (if IsKept(s[0]) then [s[0]] else []) + DropPunctuation(s[1..])
  }

  /** `re.sub(r'[\s-]+', '-', s)`: each maximal run of whitespace and hyphens becomes one hyphen. */
  function CollapseSeparators(s: string): (r: string)
    decreases |s|
    ensures |r| <= |s|
    ensures |s| > 0 ==> |r| > 0 && (if IsSeparator(s[0]) then r[0] == '-' else r[0] == s[0])
  {
    if |s| == 0 then ""
    else if IsSeparator(s[0]) then "-" + CollapseSeparators(s[SkipDropped(s, Separators, 1)..])
    else [s[0]] + CollapseSeparators(s[1..])
  }

  predicate IsSlugChar(c: char) { IsLowerLetter(c) || IsDigit(c) || c == '_' || c == '-' }

  predicate NoDoubleDash(s: string) {
    forall i :: 0 <= i < |s| - 1 ==> !(s[i] == '-' && s[i + 1] == '-')
  }

  /** Lower-case word characters and single hyphens: no whitespace, no `--` run. */
  predicate SlugShaped(s: string) {
    (forall i :: 0 <= i < |s| ==> IsSlugChar(s[i])) && NoDoubleDash(s)
  }

  /** What story_generator_03.py accepts as a cleaned headline: slug-shaped, at most 40 long, no hyphen at either end. */
  predicate IsSlug(s: string) {
    SlugShaped(s) && |s| <= SLUG_LIMIT && (s == "" || (s[0] != '-' && s[|s| - 1] != '-'))
  }

  /** Collapsing a lower-cased text of kept characters leaves a slug-shaped text. */
  lemma {:induction false} CollapseShape(s: string)
    requires forall i :: 0 <= i < |s| ==> IsKept(s[i]) && !IsUpper(s[i])
    decreases |s|
    ensures SlugShaped(CollapseSeparators(s))
  {
    if |s| > 0 {
      if IsSeparator(s[0]) {
        var k := SkipDropped(s, Separators, 1);
        var t := s[k..];
        assert forall i :: 0 <= i < |t| ==> t[i] == s[k + i];
        CollapseShape(t);
      } else {
        CollapseShape(s[1..]);
      }
    }
  }

  /** The cleanup shared by both scripts: lower-case, drop punctuation, collapse separators. */
  function Clean(s: string): (r: string)
    ensures SlugShaped(r)
    ensures |r| <= |s|
  {
    var lower := Lower(s);
    var kept := DropPunctuation(lower);
    assert forall c :: c in lower ==> !IsUpper(c);
    CollapseShape(kept);
    CollapseSeparators(kept)
  }

  /** Any slice of a slug-shaped text is slug-shaped. */
  lemma SlugShapedSlice(s: string, lo: nat, hi: nat)
    requires SlugShaped(s) && lo <= hi <= |s|
    ensures SlugShaped(s[lo..hi])
  {
    assert forall i :: 0 <= i < hi - lo ==> s[lo..hi][i] == s[lo + i];
  }

  /** `[:40].strip('-')` applied to a slug-shaped text. */
  function Fit(s: string): (r: string)
    requires SlugShaped(s)
    ensures IsSlug(r)
  {
    var t := Truncate(s, SLUG_LIMIT);
    SlugShapedSlice(s, 0, |t|);
    SlugShapedSlice(t, TrimStart(t, Dashes), TrimEnd(t, Dashes));
    Trim(t, Dashes)
  }

  /** The cleaned headline of story_generator_03.py. */
  function Slugify(headline: string): (r: string)
    ensures IsSlug(r)
  {
    Fit(Clean(headline))
  }

  /** The filename stem of story_generator.py: the cleanup cut to 50 characters, nothing stripped. */
  function FilenameBase(headline: string): (r: string)
    ensures SlugShaped(r)
    ensures |r| <= BASE_LIMIT_01
    ensures |r| <= |Clean(headline)| && r == Clean(headline)[..|r|]
    ensures |Clean(headline)| <= BASE_LIMIT_01 ==> r == Clean(headline)
    ensures |Clean(headline)| > BASE_LIMIT_01 ==> |r| == BASE_LIMIT_01
  {
    var c := Clean(headline);
    var r := Truncate(c, BASE_LIMIT_01);
    assert forall i :: 0 <= i < |r| ==> r[i] == c[i];
    r
  }

  /** A slug-shaped text is left alone by the separator collapse. */
  lemma {:induction false} CollapseFixesSlugShaped(s: string)
    requires SlugShaped(s)
    decreases |s|
    ensures CollapseSeparators(s) == s
  {
    if |s| > 0 {
      assert SlugShaped(s[1..]);
      CollapseFixesSlugShaped(s[1..]);
      if IsSeparator(s[0]) {
        assert s[0] == '-';
        assert |s| > 1 ==> s[1] != '-';
        assert SkipDropped(s, Separators, 1) == 1;
      }
    }
  }

  /** A slug-shaped text is its own cleanup. */
  lemma CleanFixesSlugShaped(s: string)
    requires SlugShaped(s)
    ensures Clean(s) == s
  {
    assert Lower(s) == s;
    assert DropPunctuation(s) == s;
    CollapseFixesSlugShaped(s);
  }

  /** A slug is its own cleaned headline. */
  lemma SlugifyFixesSlugs(s: string)
    requires IsSlug(s)
    ensures Slugify(s) == s
  {
    CleanFixesSlugShaped(s);
    assert Truncate(s, SLUG_LIMIT) == s;
    if s != "" {
      assert TrimStart(s, Dashes) == 0;
      assert TrimEnd(s, Dashes) == |s|;
    }
  }

  // ---------------------------------------------------------------------------
  // What the cleanup keeps

  /** The characters of `s` that are neither whitespace nor hyphens, in order. */
  function Solid(s: string): (r: string)
    ensures |r| <= |s|
  {
    if |s| == 0 then "" else (if IsSeparator(s[0]) then "" else [s[0]]) + Solid(s[1..])
  }

  /** The word characters of `s`, in order: what `\w` matches. */
  function WordChars(s: string): (r: string)
    ensures |r| <= |s|
  {
    if |s| == 0 then "" else (if IsWordChar(s[0]) then [s[0]] else "") + WordChars(s[1..])
  }

  lemma {:induction false} SolidAppend(a: string, b: string)
    decreases |a|
    ensures Solid(a + b) == Solid(a) + Solid(b)
  {
    if |a| == 0 {
      assert a + b == b;
    } else {
      assert (a + b)[0] == a[0];
      assert (a + b)[1..] == a[1..] + b;
      SolidAppend(a[1..], b);
      ConcatAssoc(if IsSeparator(a[0]) then "" else [a[0]], Solid(a[1..]), Solid(b));
    }
  }

  lemma {:induction false} SolidOfRun(s: string)
    requires forall i :: 0 <= i < |s| ==> IsSeparator(s[i])
    decreases |s|
    ensures Solid(s) == ""
  {
    if |s| > 0 {
      assert forall i :: 0 <= i < |s| - 1 ==> s[1..][i] == s[i + 1];
      SolidOfRun(s[1..]);
    }
  }

  /** Collapsing separator runs keeps every other character, in order. */
  lemma {:induction false} CollapseKeepsSolid(s: string)
    decreases |s|
    ensures Solid(CollapseSeparators(s)) == Solid(s)
  {
    if |s| > 0 {
      if IsSeparator(s[0]) {
        var k := SkipDropped(s, Separators, 1);
        CollapseKeepsSolid(s[k..]);
        assert s == s[..k] + s[k..];
        SolidAppend(s[..k], s[k..]);
        assert forall i :: 0 <= i < k ==> s[..k][i] == s[i];
        SolidOfRun(s[..k]);
        SolidAppend("-", CollapseSeparators(s[k..]));
      } else {
        CollapseKeepsSolid(s[1..]);
        SolidAppend([s[0]], CollapseSeparators(s[1..]));
        assert s == [s[0]] + s[1..];
        SolidAppend([s[0]], s[1..]);
      }
    }
  }

  /** A text ending in a character that is no separator collapses independently of what follows it. */
  lemma {:induction false} CollapseAppend(a: string, b: string)
    requires a == [] || !IsSeparator(a[|a| - 1])
    decreases |a|
    ensures CollapseSeparators(a + b) == CollapseSeparators(a) + CollapseSeparators(b)
  {
    if |a| == 0 {
      assert a + b == b;
    } else {
      var s := a + b;
      assert s[0] == a[0];
      if IsSeparator(a[0]) {
        var k := SkipDropped(a, Separators, 1);
        assert k < |a|;
        assert forall m :: 1 <= m <= k ==> s[m] == a[m];
        SkipDroppedAt(s, Separators, 1, k);
        assert s[k..] == a[k..] + b;
        CollapseAppend(a[k..], b);
        ConcatAssoc("-", CollapseSeparators(a[k..]), CollapseSeparators(b));
      } else {
        assert s[1..] == a[1..] + b;
        CollapseAppend(a[1..], b);
        ConcatAssoc([a[0]], CollapseSeparators(a[1..]), CollapseSeparators(b));
      }
    }
  }

  /**
   A maximal run of whitespace and hyphens becomes exactly one hyphen, and
   the text on either side collapses on its own.
   */
  lemma {:induction false} CollapseRun(a: string, run: string, b: string)
    requires a == [] || !IsSeparator(a[|a| - 1])
    requires |run| > 0 && forall i :: 0 <= i < |run| ==> IsSeparator(run[i])
    requires b == [] || !IsSeparator(b[0])
    ensures CollapseSeparators(a + run + b) == CollapseSeparators(a) + "-" + CollapseSeparators(b)
  {
    var t := run + b;
    assert a + run + b == a + t;
    CollapseAppend(a, t);
    assert forall m :: 0 <= m < |run| ==> t[m] == run[m];
    SkipDroppedAt(t, Separators, 1, |run|);
    assert t[|run|..] == b;
    ConcatAssoc(CollapseSeparators(a), "-", CollapseSeparators(b));
  }

  /** Dropping punctuation and then setting separators aside leaves the word characters. */
  lemma {:induction false} SolidOfKept(s: string)
    decreases |s|
    ensures Solid(DropPunctuation(s)) == WordChars(s)
  {
    if |s| > 0 {
      var head := if IsKept(s[0]) then [s[0]] else [];
      SolidAppend(head, DropPunctuation(s[1..]));
      SolidOfKept(s[1..]);
    }
  }

  /**
   Apart from its hyphens, the cleaned headline is exactly the headline's
   lower-cased word characters, in order: nothing else is dropped or added.
   */
  lemma CleanKeepsWords(headline: string)
    ensures Solid(Clean(headline)) == WordChars(Lower(headline))
  {
    CollapseKeepsSolid(DropPunctuation(Lower(headline)));
    SolidOfKept(Lower(headline));
  }

  /** Cleaning a headline twice gives what cleaning it once gives. */
  lemma SlugifyIdempotent(headline: string)
    ensures Slugify(Slugify(headline)) == Slugify(headline)
  {
    SlugifyFixesSlugs(Slugify(headline));
  }
}

=== FILE: text.dfy ===
/**
 Python string primitives used by both story generator scripts, restricted to
 ASCII text: character classes, strip, startswith, find, split and join, and the
 decimal conversions behind `int(...)` and `str(...)`.
 */
module Text {

  datatype Option<T> = None | Some(value: T) {
    /** Python's `dict.get(key, default)` shape: the value, or a default. */
    function GetOr(default: T): T {
      if Some? then value else default
    }
  }

  /** `str.isspace` on ASCII: space, \t \n \v \f \r and the separators 0x1C-0x1F. */
  predicate IsSpace(c: char) {
    c == ' ' || (9 <= c as int <= 13) || (28 <= c as int <= 31)
  }

  predicate IsDigit(c: char) { '0' <= c <= '9' }

  predicate IsUpper(c: char) { 'A' <= c <= 'Z' }

  predicate IsLowerLetter(c: char) { 'a' <= c <= 'z' }

  /** The regex class `\w` on ASCII. */
  predicate IsWordChar(c: char) {
    IsUpper(c) || IsLowerLetter(c) || IsDigit(c) || c == '_'
  }

  predicate IsDash(c: char) { c == '-' }

  /** `str.lower` on one ASCII character. */
  function LowerChar(c: char): (r: char)
    ensures IsUpper(c) ==> IsLowerLetter(r) && r as int == c as int + 32
    ensures !IsUpper(c) ==> r == c
  {
    if IsUpper(c) then (c as int + 32) as char else c
  }

  function Lower(s: string): (r: string)
    ensures |r| == |s|
    ensures forall i :: 0 <= i < |s| ==> r[i] == LowerChar(s[i])
  {
    seq(|s|, i requires 0 <= i < |s| => LowerChar(s[i]))
  }

  predicate StartsWith(s: string, prefix: string) {
    |prefix| <= |s| && s[..|prefix|] == prefix
  }

  predicate EndsWith(s: string, suffix: string) {
    |suffix| <= |s| && s[|s| - |suffix|..] == suffix
  }

  /** A literal at position i, ignoring ASCII case (a regex literal under IGNORECASE); `lit` is lower case. */
  predicate LiteralAtNoCase(s: string, i: nat, lit: string) {
    i + |lit| <= |s| && Lower(s[i..i + |lit|]) == lit
  }

  /**
   The character sets the scripts strip or collapse: whitespace (`strip()`),
   hyphens (`strip('-')`) and both together (the class `[\s-]`).
   */
  datatype StripSet = Spaces | Dashes | Separators

  predicate Dropped(d: StripSet, c: char) {
    match d
    case Spaces => IsSpace(c)
    case Dashes => IsDash(c)
    case Separators => IsSpace(c) || IsDash(c)
  }

  /** The first index at or after `j` whose character is not dropped (`lstrip` from j). */
  function SkipDropped(s: string, d: StripSet, j: nat): (k: nat)
    requires j <= |s|
    decreases |s| - j
    ensures j <= k <= |s|
    ensures forall m :: j <= m < k ==> Dropped(d, s[m])
    ensures k == |s| || !Dropped(d, s[k])
  {
    if j < |s| && Dropped(d, s[j]) then SkipDropped(s, d, j + 1) else j
  }

  /** The end of `s[lo..k]` once its trailing dropped characters are removed (`rstrip`). */
  function BackDropped(s: string, d: StripSet, lo: nat, k: nat): (e: nat)
    requires lo <= k <= |s|
    decreases k
    ensures lo <= e <= k
    ensures forall m :: e <= m < k ==> Dropped(d, s[m])
    ensures e == lo || !Dropped(d, s[e - 1])
  {
    if k > lo && Dropped(d, s[k - 1]) then BackDropped(s, d, lo, k - 1) else k
  }

  /** A run of dropped characters known to end at `k` is where SkipDropped stops. */
  lemma {:induction false} SkipDroppedAt(s: string, d: StripSet, j: nat, k: nat)
    requires j <= k <= |s|
    requires forall m :: j <= m < k ==> Dropped(d, s[m])
    requires k == |s| || !Dropped(d, s[k])
    decreases k - j
    ensures SkipDropped(s, d, j) == k
  {
    if j < k {
      SkipDroppedAt(s, d, j + 1, k);
    }
  }

  /** Where the stripped text begins and ends in the original. */
  function TrimStart(s: string, d: StripSet): nat {
    SkipDropped(s, d, 0)
  }

  function TrimEnd(s: string, d: StripSet): (e: nat)
    ensures TrimStart(s, d) <= e <= |s|
  {
    BackDropped(s, d, TrimStart(s, d), |s|)
  }

  /** Python `s.strip(chars)`: the longest infix with no dropped character at either end. */
  function Trim(s: string, d: StripSet): (r: string)
    ensures |r| <= |s|
    ensures r != [] ==> !Dropped(d, r[0]) && !Dropped(d, r[|r| - 1])
  {
    s[TrimStart(s, d)..TrimEnd(s, d)]
  }

  /** Everything is stripped exactly when every character is dropped. */
  lemma TrimAllDropped(s: string, d: StripSet)
    ensures Trim(s, d) == [] <==> forall i :: 0 <= i < |s| ==> Dropped(d, s[i])
  {
    var lo := TrimStart(s, d);
    if lo < |s| {
      assert TrimEnd(s, d) > lo;
    }
  }

  /** Trimming removes characters and adds none. */
  lemma TrimChars(s: string, d: StripSet)
    ensures forall c :: c in Trim(s, d) ==> c in s
  {
    var lo := TrimStart(s, d);
    forall c | c in Trim(s, d) ensures c in s {
      var i :| 0 <= i < |Trim(s, d)| && Trim(s, d)[i] == c;
      assert s[lo + i] == c;
    }
  }

  /** A last character that is not dropped stays last. */
  lemma TrimKeepsLast(s: string, d: StripSet)
    requires |s| > 0 && !Dropped(d, s[|s| - 1])
    ensures |Trim(s, d)| > 0 && Trim(s, d)[|Trim(s, d)| - 1] == s[|s| - 1]
  {
    assert TrimStart(s, d) < |s|;
    assert TrimEnd(s, d) == |s|;
  }

  /** Python `s.strip()`. */
  function Strip(s: string): (r: string)
    ensures r == [] <==> forall i :: 0 <= i < |s| ==> IsSpace(s[i])
    ensures r != [] ==> !IsSpace(r[0]) && !IsSpace(r[|r| - 1])
  {
    TrimAllDropped(s, Spaces);
    Trim(s, Spaces)
  }

  /** Concatenation regroups freely. */
  lemma ConcatAssoc<T>(a: seq<T>, b: seq<T>, c: seq<T>)
    ensures a + (b + c) == a + b + c
  {
  }

  /** Python `s[:n]`. */
  function Truncate<T>(s: seq<T>, n: nat): (r: seq<T>)
    ensures |r| <= n && |r| <= |s| && r == s[..|r|]
    ensures |s| <= n ==> r == s
    ensures |s| > n ==> |r| == n
  {
    if |s| <= n then s else s[..n]
  }

  /** The first index at or after `j` that is not whitespace (the regex `\s*`, greedy). */
  function SkipSpaces(s: string, j: nat): (k: nat)
    requires j <= |s|
    ensures j <= k <= |s|
    ensures forall m :: j <= m < k ==> IsSpace(s[m])
    ensures k == |s| || !IsSpace(s[k])
  {
    SkipDropped(s, Spaces, j)
  }

  /** The end of the run of ASCII digits starting at `j` (the regex `\d*`, greedy). */
  function DigitRunEnd(s: string, j: nat): (k: nat)
    requires j <= |s|
    decreases |s| - j
    ensures j <= k <= |s|
    ensures forall m :: j <= m < k ==> IsDigit(s[m])
    ensures k == |s| || !IsDigit(s[k])
  {
    if j < |s| && IsDigit(s[j]) then DigitRunEnd(s, j + 1) else j
  }

  /** A digit run that is known to end at `k` is where DigitRunEnd stops. */
  lemma {:induction false} DigitRunEndAt(s: string, j: nat, k: nat)
    requires j <= k <= |s|
    requires forall m :: j <= m < k ==> IsDigit(s[m])
    requires k == |s| || !IsDigit(s[k])
    decreases k - j
    ensures DigitRunEnd(s, j) == k
  {
    if j < k {
      DigitRunEndAt(s, j + 1, k);
    }
  }

  /** The first index at or after `k` holding the character `c`. */
  function FindChar(s: string, c: char, k: nat): (r: Option<nat>)
    decreases |s| - k
    ensures r.Some? ==> k <= r.value < |s| && s[r.value] == c
    ensures r.Some? ==> forall m :: k <= m < r.value ==> s[m] != c
    ensures r.None? ==> forall m :: k <= m < |s| ==> s[m] != c
  {
    if k >= |s| then None
    else if s[k] == c then Some(k)
    else FindChar(s, c, k + 1)
  }

  predicate OccursAt(s: string, pat: string, j: nat) {
    j + |pat| <= |s| && s[j..j + |pat|] == pat
  }

  /** Python `s.find(pat, start)`, as an option. */
  function FindFrom(s: string, pat: string, start: nat): (r: Option<nat>)
    decreases |s| - start
    ensures r.Some? ==> start <= r.value && OccursAt(s, pat, r.value)
    ensures r.Some? ==> forall j :: start <= j < r.value ==> !OccursAt(s, pat, j)
    ensures r.None? ==> forall j :: start <= j ==> !OccursAt(s, pat, j)
  {
    if start + |pat| > |s| then None
    else if OccursAt(s, pat, start) then Some(start)
    else FindFrom(s, pat, start + 1)
  }

  /** A text placed between two others occurs right after the first. */
  lemma OccursInMiddle(a: string, x: string, b: string)
    ensures OccursAt(a + x + b, x, |a|)
  {
    assert (a + x + b)[|a|..|a| + |x|] == x;
  }

  /** An occurrence inside an occurrence is an occurrence in the whole text. */
  lemma OccursWithin(s: string, x: string, i: nat, pat: string, k: nat)
    requires OccursAt(s, x, i) && OccursAt(x, pat, k)
    ensures OccursAt(s, pat, i + k)
  {
    assert forall m :: 0 <= m < |x| ==> s[i + m] == x[m] by {
      assert s[i..i + |x|] == x;
    }
    assert forall m :: 0 <= m < |pat| ==> x[k + m] == pat[m] by {
      assert x[k..k + |pat|] == pat;
    }
    assert s[i + k..i + k + |pat|] == pat;
  }

  /** Python `pat in s`. */
  predicate Contains(s: string, pat: string) {
    FindFrom(s, pat, 0).Some?
  }

  lemma ContainsAt(s: string, pat: string, j: nat)
    requires OccursAt(s, pat, j)
    ensures Contains(s, pat)
  {
  }

  /** The pieces of `s[start..]` between occurrences of `sep`, left to right. */
  function SplitFrom(s: string, sep: string, start: nat): (parts: seq<string>)
    requires |sep| > 0 && start <= |s|
    decreases |s| - start
    ensures |parts| > 0
  {
    match FindFrom(s, sep, start)
    case None => [s[start..]]
    case Some(k) => [s[start..k]] + SplitFrom(s, sep, k + |sep|)
  }

  /** Python `s.split(sep)` for a non-empty separator. */
  function SplitOn(s: string, sep: string): seq<string>
    requires |sep| > 0
  {
    SplitFrom(s, sep, 0)
  }

  /** Python `s.split("\n")`. */
  function Lines(s: string): seq<string> {
    SplitOn(s, "\n")
  }

  /** Python `sep.join(parts)`. */
  function Join(parts: seq<string>, sep: string): string {
    if |parts| == 0 then ""
    else if |parts| == 1 then parts[0]
    else parts[0] + sep + Join(parts[1..], sep)
  }

  lemma JoinCons(a: string, rest: seq<string>, sep: string)
    requires |rest| > 0
    ensures Join([a] + rest, sep) == a + sep + Join(rest, sep)
  {
    assert ([a] + rest)[1..] == rest;
  }

  lemma SliceAround(s: string, start: nat, k: nat, sep: string)
    requires start <= k && OccursAt(s, sep, k)
    ensures s[start..] == s[start..k] + sep + s[k + |sep|..]
  {
    assert s[start..] == s[start..k] + s[k..k + |sep|] + s[k + |sep|..];
  }

  /** Splitting and joining with the same separator gives back the text. */
  lemma {:induction false} JoinSplitFrom(s: string, sep: string, start: nat)
    requires |sep| > 0 && start <= |s|
    decreases |s| - start
    ensures Join(SplitFrom(s, sep, start), sep) == s[start..]
  {
    match FindFrom(s, sep, start)
    case None =>
    case Some(k) =>
      JoinSplitFrom(s, sep, k + |sep|);
      JoinCons(s[start..k], SplitFrom(s, sep, k + |sep|), sep);
      SliceAround(s, start, k, sep);
  }

  lemma JoinSplit(s: string, sep: string)
    requires |sep| > 0
    ensures Join(SplitOn(s, sep), sep) == s
  {
    JoinSplitFrom(s, sep, 0);
  }

  /** Every piece of a split is a slice of the text, so its characters are the text's. */
  lemma {:induction false} SplitFromChars(s: string, sep: string, start: nat)
    requires |sep| > 0 && start <= |s|
    decreases |s| - start
    ensures forall p, c :: p in SplitFrom(s, sep, start) && c in p ==> c in s
  {
    match FindFrom(s, sep, start)
    case None =>
    case Some(k) => SplitFromChars(s, sep, k + |sep|);
  }

  /** Splitting on a one-character separator leaves that character in no piece. */
  lemma {:induction false} SplitFromNoSep(s: string, c: char, start: nat)
    requires start <= |s|
    decreases |s| - start
    ensures forall p :: p in SplitFrom(s, [c], start) ==> c !in p
  {
    match FindFrom(s, [c], start)
    case None =>
      forall j | start <= j < |s| ensures s[j] != c {
        assert !OccursAt(s, [c], j);
      }
    case Some(k) =>
      SplitFromNoSep(s, c, k + 1);
      forall j | start <= j < k ensures s[j] != c {
        assert !OccursAt(s, [c], j);
      }
  }

  lemma LinesHaveNoNewline(s: string)
    ensures forall l :: l in Lines(s) ==> '\n' !in l
  {
    SplitFromNoSep(s, '\n', 0);
  }

  /** A character of a joined text that is not in the separator comes from one of the parts. */
  lemma {:induction false} JoinChar(parts: seq<string>, sep: string, i: nat)
    requires i < |Join(parts, sep)|
    requires Join(parts, sep)[i] !in sep
    ensures exists p :: p in parts && Join(parts, sep)[i] in p
  {
    if |parts| == 1 {
      assert parts[0] in parts;
    } else {
      var rest := Join(parts[1..], sep);
      assert Join(parts, sep) == parts[0] + sep + rest;
      if i < |parts[0]| {
        assert parts[0] in parts;
      } else {
        assert i >= |parts[0]| + |sep|;
        assert Join(parts, sep)[i] == rest[i - |parts[0]| - |sep|];
        JoinChar(parts[1..], sep, i - |parts[0]| - |sep|);
      }
    }
  }

  /** Python `[p.strip() for p in parts if p.strip()]`. */
  function StrippedNonBlank(parts: seq<string>): (r: seq<string>)
    ensures |r| <= |parts|
    ensures forall i :: 0 <= i < |r| ==> r[i] != ""
  {
    if |parts| == 0 then []
    else
      var rest := StrippedNonBlank(parts[1..]);
      var head := Strip(parts[0]);
      if head != "" then [head] + rest else rest
  }

  /** Nothing survives exactly when every part is blank. */
  lemma {:induction false} StrippedNonBlankEmpty(parts: seq<string>)
    ensures StrippedNonBlank(parts) == [] <==> forall i :: 0 <= i < |parts| ==> Strip(parts[i]) == ""
  {
    if |parts| > 0 {
      StrippedNonBlankEmpty(parts[1..]);
      assert forall i :: 1 <= i < |parts| ==> parts[i] == parts[1..][i - 1];
    }
  }

  function DigitChar(d: nat): (c: char)
    requires d < 10
    ensures IsDigit(c)
  {
    ('0' as int + d) as char
  }

  /** Python `str(n)` for a natural number. */
  function NatToString(n: nat): (r: string)
    ensures |r| > 0
    ensures forall i :: 0 <= i < |r| ==> IsDigit(r[i])
  {
    if n < 10 then [DigitChar(n)] else NatToString(n / 10) + [DigitChar(n % 10)]
  }

  function DigitValue(c: char): (d: nat)
    requires IsDigit(c)
    ensures d < 10
  {
    c as int - '0' as int
  }

  /** Python `int(s)` for a string of ASCII digits (the empty string reads as 0). */
  function DigitsValue(s: string): nat
    requires forall i :: 0 <= i < |s| ==> IsDigit(s[i])
  {
    if |s| == 0 then 0
    else DigitsValue(s[..|s| - 1]) * 10 + DigitValue(s[|s| - 1])
  }

  /** `int(str(n)) == n`. */
  lemma {:induction false} DigitsValueOfNatToString(n: nat)
    ensures DigitsValue(NatToString(n)) == n
  {
    if n >= 10 {
      var s := NatToString(n);
      assert s[..|s| - 1] == NatToString(n / 10);
      DigitsValueOfNatToString(n / 10);
    }
  }

  /** Distinct numbers have distinct decimal spellings. */
  lemma NatToStringInjective(a: nat, b: nat)
    requires NatToString(a) == NatToString(b)
    ensures a == b
  {
    DigitsValueOfNatToString(a);
    DigitsValueOfNatToString(b);
  }
}
